=== FILE: README.md ===
# Dealer portal core, modelled in Dafny

This project models the decision logic of a car-lease dealer portal (a
Next.js application) and proves properties of it. It covers six parts:

- **Lease pricing** (`Pricing`, lib/utils.ts):
  - the rate table of the seventeen letters A..Q ("staffel");
  - the effective rate for a young or an established business;
  - `calcMonthly`, the monthly payment of a lease whose balloon
    (slottermijn) is discounted to present value.

  Rates are integers in hundredths of a percent. Amounts are exact reals,
  and `(1 + i)^n` is a recursive `Pow`.
- **RDW lookup** (`Rdw`, app/api/rdw/route.ts):
  - the fuel-name classifier `normalizeFuelName`;
  - the fuel label `deriveFuelLabel`, which dedupes in first-seen order,
    builds a hybrid label or joins with " + ";
  - licence-plate (kenteken) normalisation;
  - the year of first registration (bouwjaar);
  - the handler's 400/404/500 outcomes.
- **Application list and creation** (`Applications`,
  app/api/applications/route.ts):
  - the visibility filter and newest-first order of `GET`;
  - the 401/400 guards of `POST`;
  - the mapping of the request body onto the stored row, including
    sanitised money strings and defaults.
- **Application detail** (`ApplicationDetail`): the route that
  scripts/appnumber-fix.mjs writes out (its lines 57-77).
  - A digits-only key matches the application number or the id; any other
    key matches the id only.
  - The first match in store order wins.
  - Then comes 401, 404 and 403 in that order.
- **User administration** (`Users`, app/api/users/route.ts):
  - `isEmail` as the character-level meaning of its regular expression;
  - e-mail normalisation;
  - the admin guard;
  - the role default;
  - the ordered 400/400/409/201 outcomes;
  - the role filter of `GET`.
- **E-mail templates** (`EmailTemplates`, lib/email-templates.ts):
  - `escapeHtml`;
  - the exact lines of the customer mail and the office mail, with their
    fallbacks and conditional parts.

Four helper modules carry the JavaScript semantics the handlers rely on:

- `Text`: `trim` (the full `\s` set), ASCII `toUpperCase` and
  `toLowerCase`, `includes`, `join`, and a global `replace` with a negated
  character class.
- `Js`: parsed JSON values, truthiness, `a || b`, `a?.b`, `String(v)` and
  `Number(v)`.
- `Http`: the session and the response.
- `Ordering`: a newest-first sort.

The handlers are pure functions, plus one method with a loop. Their inputs
are passed in as parameters:

- the session;
- the parsed request body (`None` when the body is not JSON);
- the store, as a sequence of records in store order;
- the set of existing e-mail addresses;
- the bodies of the RDW fetches.

Two behaviours of the code are worth knowing before reading the table:

- The detail lookup is a single `findFirst` over `appNumber = n OR id =
  key`. The first matching record in store order is returned; the
  application number has no priority over the id
  (`ApplicationDetail.NoPriorityBetweenKeys`).
- `calcMonthly` clamps three quantities at 0 with `Math.max(0, …)`: the
  financed amount, the straight-line payment of the zero-rate branch, and
  the annuity base `L`. It does not clamp a negative balloon or negative
  prices.

## Model

| member | source | states |
|---|---|---|
| Pricing.MonthsOptionsAreWholeYears | lib/utils.ts:2 | the six term options are the decimal numerals of 12, 24, 36, 48, 60 and 72 months, in that order |
| Pricing.LettersFromA | lib/utils.ts:14-16 | the rate letter at index i is the one-character string whose code is that of "A" plus i |
| Pricing.StaffelLettersAreAToQ | lib/utils.ts:14-16 | the rate letters are exactly "A" through "Q" in order |
| Pricing.StaffelLettersDistinct | lib/utils.ts:14-16 | no rate letter occurs twice, so the reduce never overwrites an entry |
| Pricing.AddRatesFacts | lib/utils.ts:17-24 | the reduce adds exactly the given letters to the accumulator's keys, gives the letter at offset k the rate of index idx + k, and leaves every other key alone |
| Pricing.BaseRatesTable | lib/utils.ts:17-24 | the table has exactly the seventeen letters as keys and the letter at index k has rate 16.49 - 0.50 k |
| Pricing.BaseRatesRange | lib/utils.ts:19-20 | every table rate lies between 8.49 and 16.49 |
| Pricing.BaseRatesStep | lib/utils.ts:19 | neighbouring letters differ by exactly 0.50 |
| Pricing.EffectiveRate | lib/utils.ts:26-29 | the effective rate is one of the table rates, less 1.00 for an established business, and lies in [7.49, 16.49] |
| Pricing.BaseRate | lib/utils.ts:27 | `BASE_RATES[letter] ?? 16.49` is always one of the seventeen table rates, between 8.49 and 16.49 |
| Pricing.EffectiveRateOfLetter | lib/utils.ts:26-29 | the letter at index k costs 16.49 - 0.50 k for a young business and 15.49 - 0.50 k otherwise |
| Pricing.YoungBusinessSurcharge | lib/utils.ts:28 | for every letter the young-business rate is exactly 1.00 above the established rate |
| Pricing.UnknownLetterPricedAsA | lib/utils.ts:27 | a letter outside the table is priced as "A", 16.49 for a young business |
| Pricing.PowBounds | lib/utils.ts:54 | the growth factor x^n is positive, above 1 for x > 1, below 1 for x < 1, and 1 for x = 1 |
| Pricing.GrowthFactor | lib/utils.ts:52-54 | for rates above -1200 % the factor (1 + i)^n is positive and differs from 1 whenever i and n are not 0 |
| Pricing.CalcMonthlyDegenerate | lib/utils.ts:48-51 | nothing financed (price at most the down payment) or a zero term gives a payment of 0 |
| Pricing.CalcMonthlyZeroRate | lib/utils.ts:53 | at a zero rate the payment is max(0, (P - FV)/n), and without a balloon exactly P/n |
| Pricing.CalcMonthlyBranches | lib/utils.ts:48-57 | with something financed and a term, the payment is the straight line at rate 0 and the annuity payment otherwise |
| Pricing.CalcMonthly | lib/utils.ts:31-57 | for every rate above -1200 % the payment is never negative; it is 0 when the balloon is at least the financed amount grown at the monthly rate over the term; at rate 0 without a balloon the n payments add up to exactly the financed amount |
| Pricing.StraightLine | lib/utils.ts:53 | the zero-rate payment max(0, (P - FV)/n) is never negative, is 0 when the balloon covers the financed amount, and without a balloon n payments add up to exactly P |
| Pricing.AnnuityPayment | lib/utils.ts:54-57 | the annuity branch is never negative, and is 0 when the balloon grown back from its present value covers the financed amount |
| Pricing.Annuity | lib/utils.ts:54-56 | i L / (1 - Q^-1) is not negative when i and Q - 1 have the same sign, and is 0 when the balloon is at least P Q, which makes L = 0 |
| Pricing.AnnuitySign | lib/utils.ts:56 | the divisor 1 - Q^-1 is not 0 and the quotient has the sign of i L |
| Pricing.CalcMonthlyAmortizes | lib/utils.ts:48-57 | annuity identity: paying the computed amount every month for the whole term, with interest added monthly, leaves exactly the balloon outstanding, unless the balloon's present value exceeds the financed amount |
| Pricing.AnnuityBalance | lib/utils.ts:54-57 | the annuity branch pays the financed amount down to exactly the balloon |
| Pricing.ZeroRateBalance | lib/utils.ts:53 | the straight-line branch pays the financed amount down to exactly the balloon |
| Pricing.Max0 | lib/utils.ts:48 | `Math.max(0, x)` is at least 0 and at least x, and equals x when x is not negative |
| Rdw.Classify | app/api/rdw/route.ts:6-14 | a text with a keyword gets one of the eight canonical labels; one without gets the capitalised text |
| Rdw.ClassifyByTable | app/api/rdw/route.ts:6-13 | the first of the eleven keywords (elektr, benz, dies, lpg, cng, aardgas, waterstof, hydrogen, ethanol, e85, hybride) that the text contains decides the label, with aardgas giving CNG, hydrogen Waterstof and e85 Ethanol |
| Rdw.ClassifyNoKeyword | app/api/rdw/route.ts:14 | a text containing none of the eleven keywords is only capitalised |
| Rdw.NormalizeFuelName | app/api/rdw/route.ts:4-15 | the result is a canonical label or the trimmed lower-cased input with its first character upper-cased |
| Rdw.Capitalize | app/api/rdw/route.ts:14 | same length; the first character upper-cased, the rest unchanged |
| Rdw.ElectricFirst | app/api/rdw/route.ts:5-6 | any description whose trimmed lower-cased text contains "elektr" is "Elektrisch", whatever else it contains |
| Rdw.CanonicalFixedPoints | app/api/rdw/route.ts:4-15 | each of Elektrisch, Benzine, Diesel, LPG, CNG, Waterstof, Ethanol and Hybride normalises to itself |
| Rdw.NormalizeIdempotent | app/api/rdw/route.ts:4-15 | normalising a normalised name gives it back |
| Rdw.CapitalizedRoundTrip | app/api/rdw/route.ts:14 | the capitalised fallback of trimmed lower-case text is still trimmed, and lower-casing it gives the text back |
| Rdw.NormalizeFallback | app/api/rdw/route.ts:5-14 | without a keyword the label is the trimmed, lower-cased input with its first character upper-cased; it keeps the trimmed length and lower-cases every later character |
| Rdw.FuelValue | app/api/rdw/route.ts:19 | a truthy description wins; without one a truthy fuel field is taken; with neither the value is "" |
| Rdw.RawFuels | app/api/rdw/route.ts:18-20 | only truthy values are kept, at most one per record, and a single record contributes its fuel value exactly when that is truthy |
| Rdw.RawFuelsMembers | app/api/rdw/route.ts:18-20 | a value is kept iff it is truthy and the fuel value of one of the records |
| Rdw.RawFuelsAppend | app/api/rdw/route.ts:18-20 | the values of two record lists are those of the first followed by those of the second, so record order is kept |
| Rdw.FuelNames | app/api/rdw/route.ts:22 | the k-th name is the normalised string form of the k-th raw value |
| Rdw.Dedup | app/api/rdw/route.ts:22 | the `Set` spread has no repeats and exactly the elements of its input |
| Rdw.DedupIsFirstOccurrences | app/api/rdw/route.ts:22 | the `Set` spread equals the independent definition "the elements that do not occur earlier", so first-seen order is kept |
| Rdw.DedupDistinct | app/api/rdw/route.ts:22 | a list without repeats comes through unchanged |
| Rdw.DedupRepeat | app/api/rdw/route.ts:22 | inserting an element that already occurs earlier, anywhere later, does not change the result |
| Rdw.Without | app/api/rdw/route.ts:25 | `filter((x) => x !== v)` keeps exactly the elements other than v |
| Rdw.WithoutFirst | app/api/rdw/route.ts:32-34 | `combustionList[0]` is the first name that is not "Elektrisch" |
| Rdw.HybridWithCombustion | app/api/rdw/route.ts:24-28 | with "Hybride" and "Elektrisch" present, the label is "Hybride (c/Elektrisch)" for c the first name that is neither, when that name is non-empty |
| Rdw.HybridAlone | app/api/rdw/route.ts:24-30 | with "Hybride" present but no "Elektrisch", or no other name, or an empty first other name, the label is exactly "Hybride" |
| Rdw.ElectricCombination | app/api/rdw/route.ts:31-35 | without "Hybride", "Elektrisch" plus another name gives "Hybride (first non-electric/Elektrisch)" |
| Rdw.JoinedLabels | app/api/rdw/route.ts:36 | with neither "Hybride" nor "Elektrisch", several names are joined with " + " |
| Rdw.SingleLabel | app/api/rdw/route.ts:24-36 | a single distinct name is returned as it is |
| Rdw.ElectricNeverJoined | app/api/rdw/route.ts:31-36 | among several distinct names, "Elektrisch" always yields a label starting with "Hybride", so a " + " join never lists it |
| Rdw.DeriveFuelLabel | app/api/rdw/route.ts:17-21 | a value that is not an array gives "" |
| Rdw.NoFuelNoLabel | app/api/rdw/route.ts:18-21 | records that all have neither a truthy description nor a truthy fuel (or an empty list) give "" |
| Rdw.DeriveFuelLabelComposes | app/api/rdw/route.ts:17-36 | otherwise the label is composed from the first occurrences of the normalised names |
| Rdw.RepeatedRecord | app/api/rdw/route.ts:18-22 | repeating a record that occurs earlier never changes the label |
| Rdw.NormalizeKenteken | app/api/rdw/route.ts:41-43 | the plate holds only A-Z and 0-9 |
| Rdw.NormalizeKentekenIdempotent | app/api/rdw/route.ts:41-43 | normalising a normalised plate gives it back |
| Rdw.KentekenByAlnum | app/api/rdw/route.ts:41-43 | upper-casing then keeping [A-Z0-9] equals keeping ASCII letters and digits then upper-casing |
| Rdw.Bouwjaar | app/api/rdw/route.ts:69-71 | a falsy date or one whose string form is not eight digits gives ""; an eight-digit string gives its first four characters; an array gives its first four elements; a number that reads as eight digits has no `slice`, and only then is there no year |
| Rdw.BouwjaarYear | app/api/rdw/route.ts:70-71 | for a date YYYYMMDD in either date field the year is a four-digit string whose value is the date's value divided by 10000 |
| Rdw.RdwLookup | app/api/rdw/route.ts:39-89 | 400 "kenteken required" exactly when the plate normalises to ""; otherwise 404 "not_found" exactly without a truthy first vehicle; 500 "rdw_error" exactly when its date has no `slice`; otherwise 200 with the normalised plate, `merk \|\| ""`, `handelsbenaming \|\| ""`, the derived fuel label and the year |
| Rdw.LookupOfRecord | app/api/rdw/route.ts:62-82 | a vehicle record with a make, a trade name and a date YYYYMMDD is answered with exactly those names (or "" for an empty one), the plate, the fuel label and the first four digits of the date |
| Rdw.LookupFirstRecord | app/api/rdw/route.ts:62-67 | only the first vehicle record is read, and an empty result is 404 "not_found" |
| Ordering.SortDescending | app/api/applications/route.ts:19 | the result is ordered by key, newest first, and is a permutation of the input |
| Applications.Visible | app/api/applications/route.ts:16-17 | keeps exactly the records the `where` admits, each as often as in the store |
| Applications.ListApplications | app/api/applications/route.ts:7-22 | 401 exactly without a signed-in user; otherwise the reply is newest first and holds exactly the visible records; an admin without `mine=1` gets every record with its multiplicity |
| Applications.DealerSeesOnlyOwn | app/api/applications/route.ts:12-16 | a dealer, or an admin asking for `mine=1`, only ever sees records carrying their own e-mail |
| Applications.SanitizeMoney | app/api/applications/route.ts:56 | the sanitised text holds only digits, '.' and '-' |
| Applications.SanitizeMoneyIdempotent | app/api/applications/route.ts:55-63 | sanitising twice equals sanitising once |
| Applications.MoneyField | app/api/applications/route.ts:55-63 | an absent or falsy value becomes "0"; any truthy value is `String(v)` sanitised; the result holds only digits, '.' and '-' |
| Applications.MoneyFieldCanBeEmpty | app/api/applications/route.ts:55-57 | a non-empty money text can sanitise to "" or to ".." |
| Applications.TermField | app/api/applications/route.ts:64 | `Number(x \|\| 0)` keeps a number and gives 0 for a falsy value |
| Applications.BuildRow | app/api/applications/route.ts:39-69 | the owner is the session's e-mail and `dealerId` the given one; `kvkNummer`, the contact fields and `renteStaffel` are `String(x \|\| "")` (`"A"` for the rate letter) of the given values; the six vehicle fields and the remarks are stored as given or null when falsy; each money field is the sanitised string form or "0"; the term is `Number(x \|\| 0)` of the given value; `uploads` is the input array or [] |
| Applications.TermFromForm | app/api/applications/route.ts:64 | a term sent as a numeral such as "36", as the forms send it, is stored as that number |
| Applications.KvkNumberAsText | app/api/applications/route.ts:41 | a `kvkNummer` sent as a positive number is stored as its decimal text |
| Applications.CreateApplication | app/api/applications/route.ts:25-88 | 401 exactly without a signed-in user; then 400 "Invalid JSON" exactly for an unparsable body; a `null` body fails; otherwise 201, and the row written is exactly the row built from the body, owned by the caller |
| Applications.RowRoundTrip | app/api/applications/route.ts:39-69 | every row the handler can store is built back exactly from a request body that carries its fields, so the mapping loses nothing it keeps |
| Applications.OwnerFromSession | app/api/applications/route.ts:39-40 | a body claiming another dealer's e-mail still creates a row owned by the caller |
| ApplicationDetail.NumericKeyShape | scripts/appnumber-fix.mjs:64-65 | a key is numeric iff it is non-empty and all decimal digits; "" is not numeric |
| ApplicationDetail.NonNumericMatchesById | scripts/appnumber-fix.mjs:67-69 | for a non-numeric key a record matches iff its id equals the key |
| ApplicationDetail.KeyOfOwnNumber | scripts/appnumber-fix.mjs:64-68 | the decimal numeral of a record's application number is a numeric key that finds it, also with leading zeros |
| ApplicationDetail.FirstMatch | scripts/appnumber-fix.mjs:67-69 | a found record is in the store and matches; nothing is found iff no record matches |
| ApplicationDetail.FindFirst | scripts/appnumber-fix.mjs:67-69 | the scan returns the index of a matching record with no match before it, or reports that no record matches |
| ApplicationDetail.FirstMatchAt | scripts/appnumber-fix.mjs:67-69 | the first matching index is the record `findFirst` returns |
| ApplicationDetail.GetApplication | scripts/appnumber-fix.mjs:57-77 | 401 exactly without a signed-in user; then 404 exactly when nothing matches; then 403 exactly for a non-admin who does not own the first match; otherwise that record, which the caller owns or may see as admin |
| ApplicationDetail.NoPriorityBetweenKeys | scripts/appnumber-fix.mjs:67-69 | with one record whose id is "7" and another whose number is 7, the one stored first is returned |
| Users.IsEmailIff | app/api/users/route.ts:7-9 | the pattern accepts exactly the addresses with no white space, exactly one '@', something before it, and a '.' after it with a character on each side |
| Users.IsEmailExamples | app/api/users/route.ts:7-9 | "a@b.nl" is accepted and "a@b" is not |
| Users.NormalizeEmail | app/api/users/route.ts:46 | the normalised address is the trimmed input with every character lower-cased, so it is trimmed and has no upper-case letter; a trimmed lower-case address is kept as it is |
| Users.NormalizeEmailIdempotent | app/api/users/route.ts:46 | normalising twice equals normalising once |
| Users.NormalizeEmailFixedPoints | app/api/users/route.ts:46 | an address is stored as given iff it is trimmed and has no upper-case letter |
| Users.NormalizeEmailExample | app/api/users/route.ts:46 | " A@B.nl" is stored as "a@b.nl" |
| Users.BodyEmail | app/api/users/route.ts:46 | the address is the string form of a truthy body value (the text itself for a string), trimmed and lower-cased; "" when absent or falsy; normalising it again changes nothing |
| Users.BodyEmailNormalized | app/api/users/route.ts:46-59 | the address that is validated, looked up and stored is the body's text trimmed and lower-cased: a created user carries it, and an address already in use in that form is 409 |
| Users.RoleOf | app/api/users/route.ts:49 | the role is "admin" iff the body's role is exactly the string "admin", otherwise "dealer" |
| Users.BodyName | app/api/users/route.ts:48 | a given name is stored trimmed (its string form for a non-string), an absent or falsy one is ""; the result is always trimmed |
| Users.BodyPassword | app/api/users/route.ts:47 | the password is the string form of a truthy body value (the text itself for a string), "" when absent or falsy |
| Users.NullIfEmpty | app/api/users/route.ts:58 | `name \|\| null`: absent exactly for the empty name, and otherwise the name itself |
| Users.CreateUser | app/api/users/route.ts:32-64 | 403 exactly for a non-admin; then 400 "Invalid JSON"; then, in order, 400 for an invalid address, 400 for a password under 8 characters, 409 for an address in use; 201 exactly when none of these applies; the created user is the body's normalised address, its trimmed name or null when that is empty, and the role the body asks for ("admin" only for exactly that string) |
| Users.CreatedUserOfRequest | app/api/users/route.ts:45-63 | an admin's request with a valid new address and a password of at least 8 characters creates the user with the normalised address, the trimmed name or null, and role "admin" only for the string "admin" |
| Users.WithRole | app/api/users/route.ts:23 | keeps exactly the users of the role, each as often as in the store |
| Users.ListUsers | app/api/users/route.ts:12-29 | 403 exactly for a non-admin; otherwise newest first, the users of the requested role, or all users when no role is given |
| EmailTemplates.ReplaceChar | lib/email-templates.ts:67-70 | a string without the character is left unchanged |
| EmailTemplates.EscapeChar | lib/email-templates.ts:66-71 | the entity of a character has no '<' or '>' and is longer than one character exactly for &, < and > |
| EmailTemplates.EscapeHtmlIsCharMap | lib/email-templates.ts:66-71 | the three sequential replaces equal the per-character map & to &amp;, < to &lt;, > to &gt; |
| EmailTemplates.EscapeHtml | lib/email-templates.ts:66-71 | escaped text has no '<' and no '>', is never shorter than the input, and is the input itself when that has none of &, <, > |
| EmailTemplates.EscapeHtmlUnchangedIff | lib/email-templates.ts:66-71 | escaping leaves a string unchanged iff it has none of &, <, > |
| EmailTemplates.OrText | lib/email-templates.ts:14 | `x \|\| fallback` gives the fallback exactly for the empty string |
| EmailTemplates.HeadingNumber | lib/email-templates.ts:13 | the heading ends in " #n" when there is an application number and has no suffix otherwise (lines 13 and 46) |
| EmailTemplates.CustomerLines | lib/email-templates.ts:11-31 | the customer mail's lines hold the heading, the greeting with its fallback, the plate, the vehicle and the five condition items |
| EmailTemplates.CustomerFallbacks | lib/email-templates.ts:14-27 | the greeting falls back to "klant", the plate to "Onbekend", price, term and rate to "-", and down payment and balloon to "0" |
| EmailTemplates.MerkModelCases | lib/email-templates.ts:19 | make and model are joined by one space when both are given; a missing one leaves no stray space |
| EmailTemplates.BouwjaarSuffix | lib/email-templates.ts:19 | " (year)" follows the make and model only when the year is given |
| EmailTemplates.CustomerEmailHtml | lib/email-templates.ts:4-32 | every line of the customer template occurs in the mail |
| EmailTemplates.RemarksSection | lib/email-templates.ts:62 | the remarks block is empty iff the remarks are; otherwise it holds the escaped remarks, which contain no '<' or '>' |
| EmailTemplates.InternalLines | lib/email-templates.ts:44-63 | the office mail shows the heading, `kvkJong` as "Ja"/"Nee", and the remarks block |
| EmailTemplates.InternalEmailHtml | lib/email-templates.ts:34-64 | every line of the office template occurs in the mail |

## Left out

- Floating point. Amounts are exact reals and rates exact hundredths.
  Not modelled:
  - IEEE rounding of `16.49 - idx * 0.5`;
  - `toFixed(2)`;
  - `parseNumber`'s string coercion and its NaN-to-0 rule;
  - `Intl.NumberFormat` in `prettyCurrency`;
  - the Infinity and NaN that `calcMonthly` produces when it divides by
    zero: at exactly -1200 % a year, and at -2400 % with an even term.
- Pricing.CalcMonthly: it requires an annual rate above -1200 %. At
  exactly -1200 % the growth factor `1 + i` is 0 and the JavaScript
  divides by zero. Below that the factor is negative, and `Math.pow` of it
  with a whole term is finite. The result is then a finite number, often
  negative. The exception is -2400 % with an even term: there the power is
  1, so the divisor `1 - (1 + i)^-n` is 0. Rates at or below -1200 % are
  not modelled.
- Pricing.CalcMonthly: the term is a natural number. A negative or
  fractional `looptijd` is not modelled.
- Object.prototype keys. `BASE_RATES["constructor"]` yields a function,
  not the 16.49 fallback. The model treats every non-letter key as
  missing.
- Fetches and parsing:
  - the RDW fetches and their JSON parsing are parameters;
  - a failing fetch or an unparsable reply is not modelled. Inside the
    handler's `try` (app/api/rdw/route.ts:54-82) either one would be caught
    and answered with 500 "rdw_error". The model reaches that answer only
    through a numeric date, whose missing `slice` throws inside the same
    `try`;
  - the `mine` and `role` query strings and the request body are passed
    in already parsed.
- Applications.CreateApplication: the reply is modelled as the row
  written. The handler answers only the columns it selects: id,
  appNumber, dealerEmail, kvkNummer and status. The store assigns id,
  appNumber and status, and the store is not part of this model.
- Users.CreateUser: the reply is modelled as the data written (address,
  name and role). The handler answers the selected id, email, name, role
  and createdAt; the store assigns id and createdAt, and the store is not
  part of this model.
- Js.ToNumber: the string form accepts only optional white space and
  decimal digits. Signs, decimals, exponents and hexadecimal are not
  parsed, and JSON numbers are integers.
- ApplicationDetail.KeyMatches: the numeric key is read exactly.
  `parseInt` rounds a numeral above 2^53 to the nearest double, so
  "9007199254740993" looks up 9007199254740992; the model looks up the
  number as written.
- ApplicationDetail.GetApplication: a numeric key beyond the range of the
  database's `appNumber` column makes the query throw, and the handler
  does not catch it. The model answers 404 instead. The schema is not
  part of this model.
- Unicode case mapping. `toUpperCase` and `toLowerCase` are ASCII only.
  String length is counted in code points, not UTF-16 units. This matters
  for the password length.
- Store semantics:
  - Prisma is modelled only as a sequence in store order;
  - how it orders records with equal `createdAt` (here, store order);
  - the id, application number and status it assigns on create;
  - `dealerId` lookup (a parameter);
  - rejection of a non-numeric `looptijd` by the database.
- Hashing and templates:
  - bcrypt hashing of the password;
  - `JSON.stringify` of the vehicle and conditions (passed in as text);
  - the error body's `debug` field on 404.
- Not modelled at all:
  - the script's file walker and source rewriting;
  - authentication, middleware, the KvK and mail clients;
  - the React pages.
- The helper modules `Text` and `Js` model JavaScript built-ins, not code
  of the repository. Their members have no rows in the table above.

=== FILE: application_detail.dfy ===
/** The detail handler `GET /api/applications/[id]` that the appNumber
    migration script writes out: the path key is matched against the
    application number (when it is all digits) or the id, and the first
    match in store order is shown to its owner or to an admin. */
module ApplicationDetail {
  import opened Text
  import opened Http
  import opened Applications

  /** `/^\d+$/.test(key)`: one or more decimal digits and nothing else. */
  predicate IsNumericKey(key: String) {
    key != [] && AllDigits(key)
  }

  /** The `OR` of the query: the application number equals
      `parseInt(key, 10)` (only tried for a numeric key), or the id equals
      the key. */
  predicate KeyMatches(a: Application, key: String) {
    || (IsNumericKey(key) && a.appNumber == Some(DecimalValue(key)))
    || a.id == key
  }

  /** The empty key is not numeric, and a key with any non-digit is not. */
  lemma NumericKeyShape(key: String)
    ensures IsNumericKey(key) <==> |key| > 0 && forall k :: 0 <= k < |key| ==> IsDigit(key[k])
    ensures !IsNumericKey("")
  {
  }

  /** For a non-numeric key only the id is compared. */
  lemma NonNumericMatchesById(a: Application, key: String)
    requires !IsNumericKey(key)
    ensures KeyMatches(a, key) <==> a.id == key
  {
  }

  /** A record is found by the numeral of its own application number, and
      also with zeros in front of it, since `parseInt` ignores them. */
  lemma KeyOfOwnNumber(a: Application, n: nat, zeros: nat)
    requires a.appNumber == Some(n)
    ensures IsNumericKey(NatToDecimal(n)) && KeyMatches(a, NatToDecimal(n))
    ensures KeyMatches(a, seq(zeros, _ => '0') + NatToDecimal(n))
  {
    var z := seq(zeros, _ => '0');
    var key := z + NatToDecimal(n);
    assert AllDigits(key);
    DecimalSplit(key, zeros);
    assert key[..zeros] == z && key[zeros..] == NatToDecimal(n);
    ZerosValue(z);
  }

  lemma {:induction false} ZerosValue(z: String)
    requires forall k :: 0 <= k < |z| ==> z[k] == '0'
    ensures AllDigits(z) && DecimalValue(z) == 0
  {
    if z != [] {
      ZerosValue(z[..|z| - 1]);
    }
  }

  /** Reference definition of `findFirst`: the earliest record that matches. */
  function FirstMatch(store: seq<Application>, key: String): (r: Option<Application>)
    ensures r.Some? ==> r.value in store && KeyMatches(r.value, key)
    ensures r.None? <==> forall a :: a in store ==> !KeyMatches(a, key)
  {
    if store == [] then None
    else if KeyMatches(store[0], key) then Some(store[0])
    else FirstMatch(store[1..], key)
  }

  /** `findFirst` as a scan of the store: the index of the first matching
      record, or `None`. */
  method FindFirst(store: seq<Application>, key: String) returns (found: Option<nat>)
    ensures found.Some? ==> found.value < |store| && KeyMatches(store[found.value], key)
    ensures found.Some? ==> forall k :: 0 <= k < found.value ==> !KeyMatches(store[k], key)
    ensures found.None? ==> forall k :: 0 <= k < |store| ==> !KeyMatches(store[k], key)
  {
    var i := 0;
    while i < |store|
      invariant i <= |store|
      invariant forall k :: 0 <= k < i ==> !KeyMatches(store[k], key)
    {
      if KeyMatches(store[i], key) {
        return Some(i);
      }
      i := i + 1;
    }
    return None;
  }

  /** The scan finds the record the reference definition names. */
  lemma {:induction false} FirstMatchAt(store: seq<Application>, key: String, j: nat)
    requires j < |store| && KeyMatches(store[j], key)
    requires forall k :: 0 <= k < j ==> !KeyMatches(store[k], key)
    ensures FirstMatch(store, key) == Some(store[j])
  {
    if j > 0 {
      FirstMatchAt(store[1..], key, j - 1);
    }
  }

  /** The handler: 401 without a signed-in user, before any lookup; 404 when
      no record matches, decided before ownership; 403 when the caller is
      neither an admin nor the record's dealer; otherwise the record. */
  method GetApplication(session: Option<Session>, key: String, store: seq<Application>)
    returns (r: Response<Application>)
    ensures !SignedIn(session) <==> r == Fail(Unauthorized, "Unauthorized")
    ensures SignedIn(session) && FirstMatch(store, key).None? <==> r == Fail(NotFound, "Not found")
    ensures r == Fail(Forbidden, "Forbidden") <==>
              SignedIn(session) && FirstMatch(store, key).Some? && !IsAdmin(session)
              && FirstMatch(store, key).value.dealerEmail != session.value.email
    ensures r.Reply? ==> r.status == Ok && Some(r.body) == FirstMatch(store, key)
    ensures r.Reply? ==> IsAdmin(session) || r.body.dealerEmail == session.value.email
  {
    if !SignedIn(session) {
      return Fail(Unauthorized, "Unauthorized");
    }
    var found := FindFirst(store, key);
    if found.None? {
      assert forall a :: a in store ==> !KeyMatches(a, key);
      return Fail(NotFound, "Not found");
    }
    var app := store[found.value];
    FirstMatchAt(store, key, found.value);
    if !IsAdmin(session) && app.dealerEmail != session.value.email {
      return Fail(Forbidden, "Forbidden");
    }
    return Reply(Ok, app);
  }

  /** Neither condition of the `OR` takes priority: a record whose id is the
      digits comes first when it is stored first, even though another
      record carries that number. */
  lemma NoPriorityBetweenKeys()
    ensures var byId := Application("7", Some(3), "a@x.nl", 2, "nieuw");
            var byNumber := Application("c1", Some(7), "b@x.nl", 1, "nieuw");
            FirstMatch([byId, byNumber], "7") == Some(byId)
            && FirstMatch([byNumber, byId], "7") == Some(byNumber)
  {
    assert DecimalValue("7") == 7;
  }
}

=== FILE: applications.dfy ===
/** The application list and creation handlers (`GET` and `POST` of
    /api/applications).  The store is a sequence of records in store order;
    the session and the parsed request body are parameters. */
module Applications {
  import opened Text
  import opened Js
  import opened Http
  import opened Ordering

  /** A stored lease application, reduced to the fields the handlers read. */
  datatype Application = Application(
    id: String,
    appNumber: Option<int>,
    dealerEmail: String,
    createdAt: int,
    status: String)

  // ---------------------------------------------------------------------
  // GET /api/applications?mine=1
  // ---------------------------------------------------------------------

  /** Whether the caller sees every record: an admin who did not ask for
      `mine=1`. */
  predicate SeesAll(session: Option<Session>, mine: Option<String>) {
    IsAdmin(session) && mine != Some("1")
  }

  /** The `where` clause: everything, or the caller's own records. */
  function Visible(store: seq<Application>, all: bool, email: String): (r: seq<Application>)
    ensures forall a :: a in r <==> a in store && (all || a.dealerEmail == email)
    ensures forall a: Application :: (all || a.dealerEmail == email) ==> multiset(r)[a] == multiset(store)[a]
  {
    if store == [] then []
    else
      assert store == [store[0]] + store[1..];
      var rest := Visible(store[1..], all, email);
      if all || store[0].dealerEmail == email then [store[0]] + rest else rest
  }

  /** `GET /api/applications`: 401 without a signed-in user; otherwise the
      visible records, newest first. */
  function ListApplications(session: Option<Session>, mine: Option<String>,
                            store: seq<Application>): (r: Response<seq<Application>>)
    ensures !SignedIn(session) <==> r == Fail(Unauthorized, "Unauthorized")
    ensures r.Reply? ==> r.status == Ok && Descending(r.body, (a: Application) => a.createdAt)
    ensures r.Reply? ==> forall a :: a in r.body <==>
              a in store && (SeesAll(session, mine) || a.dealerEmail == session.value.email)
    ensures r.Reply? && SeesAll(session, mine) ==> multiset(r.body) == multiset(store)
    ensures r.Reply? && !SeesAll(session, mine) ==>
              forall a: Application :: a in store && a.dealerEmail == session.value.email ==>
                multiset(r.body)[a] == multiset(store)[a]
  {
    if !SignedIn(session) then Fail(Unauthorized, "Unauthorized")
    else
      var all := SeesAll(session, mine);
      var visible := Visible(store, all, session.value.email);
      var sorted := SortDescending(visible, (a: Application) => a.createdAt);
      ListCounts(store, visible, sorted, all, session.value.email);
      Reply(Ok, sorted)
  }

  lemma ListCounts(store: seq<Application>, visible: seq<Application>, sorted: seq<Application>,
                   all: bool, email: String)
    requires visible == Visible(store, all, email)
    requires multiset(sorted) == multiset(visible)
    ensures forall a :: a in sorted <==> a in store && (all || a.dealerEmail == email)
    ensures all ==> multiset(sorted) == multiset(store)
  {
    forall a | true
      ensures a in sorted <==> a in visible
    {
      assert a in sorted <==> a in multiset(sorted);
    }
    if all {
      forall a | true
        ensures multiset(visible)[a] == multiset(store)[a]
      {
      }
    }
  }

  /** A dealer (or an admin asking for `mine=1`) sees only records carrying
      their own e-mail. */
  lemma DealerSeesOnlyOwn(session: Option<Session>, mine: Option<String>,
                          store: seq<Application>, a: Application)
    requires SignedIn(session) && !SeesAll(session, mine)
    requires a in ListApplications(session, mine, store).body
    ensures a.dealerEmail == session.value.email
  {
  }

  // ---------------------------------------------------------------------
  // POST /api/applications
  // ---------------------------------------------------------------------

  /** The row written for a new application, before the store adds its id,
      number and status. */
  datatype ApplicationRow = ApplicationRow(
    dealerEmail: String,
    kvkNummer: String,
    kvkJong: bool,
    contactNaam: String,
    contactEmail: String,
    contactTel: String,
    kenteken: Value,
    merk: Value,
    model: Value,
    brandstof: Value,
    bouwjaar: Value,
    kmStand: Value,
    aanschafprijs: String,
    aanbetaling: String,
    slottermijn: String,
    looptijd: Number,
    renteStaffel: String,
    opmerkingen: Value,
    uploads: Value,
    dealerId: Option<String>)

  /** A character `/[^\d.-]/g` does not remove. */
  predicate IsMoneyChar(c: char) {
    IsDigit(c) || c == '.' || c == '-'
  }

  /** `s.replace(/[^\d.-]/g, "")`. */
  function SanitizeMoney(s: String): (r: String)
    ensures forall k :: 0 <= k < |r| ==> IsMoneyChar(r[k])
  {
    FilterChars(s, IsMoneyChar)
  }

  /** Sanitising twice is sanitising once. */
  lemma SanitizeMoneyIdempotent(s: String)
    ensures SanitizeMoney(SanitizeMoney(s)) == SanitizeMoney(s)
  {
  }

  /** A money field: "0" when absent or falsy, otherwise `String(v)` with
      everything but digits, '.' and '-' removed. */
  function MoneyField(v: Value): (r: String)
    ensures !Truthy(v) ==> r == "0"
    ensures forall k :: 0 <= k < |r| ==> IsMoneyChar(r[k])
    ensures v.Str? && v.s != [] ==> r == SanitizeMoney(v.s)
    ensures Truthy(v) ==> r == SanitizeMoney(ToJsString(v))
  {
    if Truthy(v) then SanitizeMoney(ToJsString(v)) else "0"
  }

  /** A non-empty money text without a digit, '.' or '-' is stored as "",
      not as "0". */
  lemma MoneyFieldCanBeEmpty()
    ensures MoneyField(Str("n.v.t")) == ".."
    ensures MoneyField(Str("EUR")) == ""
  {
    var nvt: String := "n.v.t";
    assert nvt[1..] == ".v.t" && nvt[2..] == "v.t" && nvt[3..] == ".t" && nvt[4..] == "t";
    assert FilterChars("t", IsMoneyChar) == [];
    assert FilterChars(".t", IsMoneyChar) == ".";
    assert FilterChars("v.t", IsMoneyChar) == ".";
    assert FilterChars(".v.t", IsMoneyChar) == "..";
    assert FilterChars(nvt, IsMoneyChar) == "..";
    var eur: String := "EUR";
    assert eur[1..] == "UR" && eur[2..] == "R";
    assert FilterChars("R", IsMoneyChar) == [];
    assert FilterChars("UR", IsMoneyChar) == [];
    assert FilterChars(eur, IsMoneyChar) == [];
  }

  /** `body?.group?.field`. */
  function Field2(body: Value, group: String, field: String): Value {
    Prop(Prop(body, group), field)
  }

  /** `Number(x || 0)`: a number is kept, a falsy value is 0. */
  function TermField(x: Value): (r: Number)
    ensures x.Num? ==> r == Finite(x.n)
    ensures !Truthy(x) ==> r == Finite(0)
    ensures x.Str? ==> r == StringToNumber(x.s)
  {
    assert x == Str([]) ==> StringToNumber(x.s) == Finite(0) by {
      if x == Str([]) {
        assert Trim([]) == [];
      }
    }
    ToNumber(Or(x, Num(0)))
  }

  /** `x || null`: a given value is stored as it is, a falsy one as null. */
  predicate StoredOrNull(stored: Value, given: Value) {
    if Truthy(given) then stored == given else stored == Null
  }

  /** The `data` object the handler builds from the request body.  The
      dealer e-mail comes from the session, never from the body; text fields
      fall back to "" (the rate letter to "A"), vehicle fields and remarks
      to null, money fields to "0", and the term to 0. */
  function BuildRow(email: String, body: Value, dealerId: Option<String>): (r: ApplicationRow)
    ensures r.dealerEmail == email && r.dealerId == dealerId
    ensures r.kvkJong == Truthy(Prop(body, "kvkJong"))
    ensures Prop(body, "kvkNummer").Str? ==> r.kvkNummer == Prop(body, "kvkNummer").s
    ensures !Truthy(Prop(body, "kvkNummer")) ==> r.kvkNummer == ""
    ensures r.kvkNummer == TextOr(Prop(body, "kvkNummer"), "")
    ensures Field2(body, "contact", "naam").Str? ==> r.contactNaam == Field2(body, "contact", "naam").s
    ensures Field2(body, "contact", "email").Str? ==> r.contactEmail == Field2(body, "contact", "email").s
    ensures Field2(body, "contact", "telefoon").Str? ==> r.contactTel == Field2(body, "contact", "telefoon").s
    ensures !Truthy(Field2(body, "contact", "naam")) ==> r.contactNaam == ""
    ensures !Truthy(Field2(body, "contact", "email")) ==> r.contactEmail == ""
    ensures !Truthy(Field2(body, "contact", "telefoon")) ==> r.contactTel == ""
    ensures r.contactNaam == TextOr(Field2(body, "contact", "naam"), "")
    ensures r.contactEmail == TextOr(Field2(body, "contact", "email"), "")
    ensures r.contactTel == TextOr(Field2(body, "contact", "telefoon"), "")
    ensures StoredOrNull(r.kenteken, Field2(body, "voertuig", "kenteken"))
    ensures StoredOrNull(r.merk, Field2(body, "voertuig", "merk"))
    ensures StoredOrNull(r.model, Field2(body, "voertuig", "model"))
    ensures StoredOrNull(r.brandstof, Field2(body, "voertuig", "brandstof"))
    ensures StoredOrNull(r.bouwjaar, Field2(body, "voertuig", "bouwjaar"))
    ensures StoredOrNull(r.kmStand, Field2(body, "voertuig", "kmStand"))
    ensures r.aanschafprijs == MoneyField(Field2(body, "condities", "aanschafprijs"))
    ensures r.aanbetaling == MoneyField(Field2(body, "condities", "aanbetaling"))
    ensures r.slottermijn == MoneyField(Field2(body, "condities", "slottermijn"))
    ensures Field2(body, "condities", "looptijd").Num? ==> r.looptijd == Finite(Field2(body, "condities", "looptijd").n)
    ensures !Truthy(Field2(body, "condities", "looptijd")) ==> r.looptijd == Finite(0)
    ensures r.looptijd == TermField(Field2(body, "condities", "looptijd"))
    ensures Field2(body, "condities", "renteStaffel").Str? && Field2(body, "condities", "renteStaffel").s != []
            ==> r.renteStaffel == Field2(body, "condities", "renteStaffel").s
    ensures !Truthy(Field2(body, "condities", "renteStaffel")) ==> r.renteStaffel == "A"
    ensures r.renteStaffel == TextOr(Field2(body, "condities", "renteStaffel"), "A")
    ensures StoredOrNull(r.opmerkingen, Prop(body, "opmerkingen"))
    ensures !Prop(body, "uploads").Arr? ==> r.uploads == Arr([])
    ensures Prop(body, "uploads").Arr? ==> r.uploads == Prop(body, "uploads")
  {
    ApplicationRow(
      email,
      TextOr(Prop(body, "kvkNummer"), ""),
      Truthy(Prop(body, "kvkJong")),
      TextOr(Field2(body, "contact", "naam"), ""),
      TextOr(Field2(body, "contact", "email"), ""),
      TextOr(Field2(body, "contact", "telefoon"), ""),
      Or(Field2(body, "voertuig", "kenteken"), Null),
      Or(Field2(body, "voertuig", "merk"), Null),
      Or(Field2(body, "voertuig", "model"), Null),
      Or(Field2(body, "voertuig", "brandstof"), Null),
      Or(Field2(body, "voertuig", "bouwjaar"), Null),
      Or(Field2(body, "voertuig", "kmStand"), Null),
      MoneyField(Field2(body, "condities", "aanschafprijs")),
      MoneyField(Field2(body, "condities", "aanbetaling")),
      MoneyField(Field2(body, "condities", "slottermijn")),
      TermField(Field2(body, "condities", "looptijd")),
      TextOr(Field2(body, "condities", "renteStaffel"), "A"),
      Or(Prop(body, "opmerkingen"), Null),
      if Prop(body, "uploads").Arr? then Prop(body, "uploads") else Arr([]),
      dealerId)
  }

  /** The forms send the term as a numeral such as "36"; it is stored as
      that number. */
  lemma TermFromForm(email: String, body: Value, dealerId: Option<String>, t: String)
    requires Field2(body, "condities", "looptijd") == Str(t)
    requires t != [] && AllDigits(t)
    ensures BuildRow(email, body, dealerId).looptijd == Finite(DecimalValue(t))
  {
    assert !IsSpace(t[0]) && !IsSpace(t[|t| - 1]);
    assert Trim(t) == t;
  }

  /** A numeric `kvkNummer` is stored as its decimal text. */
  lemma KvkNumberAsText(email: String, body: Value, dealerId: Option<String>, n: nat)
    requires Prop(body, "kvkNummer") == Num(n) && n > 0
    ensures BuildRow(email, body, dealerId).kvkNummer == NatToDecimal(n)
  {
  }

  /** `POST /api/applications`: 401 without a signed-in user; 400 when the
      body is not JSON (`None`); an uncaught error when the body is `null`,
      whose `kvkNummer` cannot be read; otherwise the row to create, with
      status 201.  `dealerId` is the id of the user with the session's
      e-mail, if there is one. */
  function CreateApplication(session: Option<Session>, body: Option<Value>,
                             dealerId: Option<String>): (r: Response<ApplicationRow>)
    ensures !SignedIn(session) <==> r == Fail(Unauthorized, "Unauthorized")
    ensures SignedIn(session) && body.None? <==> r == Fail(BadRequest, "Invalid JSON")
    ensures r.Reply? <==> SignedIn(session) && body.Some? && !(body.value.Null? || body.value.Undefined?)
    ensures r.Reply? ==> r.status == Created && r.body.dealerEmail == session.value.email
    ensures r.Reply? ==> r.body == BuildRow(session.value.email, body.value, dealerId)
  {
    if !SignedIn(session) then Fail(Unauthorized, "Unauthorized")
    else if body.None? then Fail(BadRequest, "Invalid JSON")
    else if body.value.Null? || body.value.Undefined? then Fail(InternalError, "TypeError")
    else Reply(Created, BuildRow(session.value.email, body.value, dealerId))
  }

  /** How a stored term is sent back in a form: the integer itself, and
      for `NaN` a text that is not a numeral. */
  function TermValue(n: Number): (r: Value)
    ensures n.Finite? ==> r == Num(n.value)
    ensures n.NaN? ==> r.Str? && r.s != [] && Trimmed(r.s) && !AllDigits(r.s)
  {
    match n
    case Finite(k) => Num(k)
    case NaN =>
      var t := "NaN";
      assert t[0] == 'N' && !IsDigit(t[0]) && t[|t| - 1] == 'N';
      Str(t)
  }

  /** A row written back as the request body that describes it. */
  function RowBody(row: ApplicationRow): Value {
    Obj(map[
      "kvkNummer" := Str(row.kvkNummer),
      "kvkJong" := Bool(row.kvkJong),
      "contact" := ContactBody(row),
      "voertuig" := VehicleBody(row),
      "condities" := TermsBody(row),
      "opmerkingen" := row.opmerkingen,
      "uploads" := row.uploads])
  }

  function ContactBody(row: ApplicationRow): Value {
    Obj(map["naam" := Str(row.contactNaam), "email" := Str(row.contactEmail),
            "telefoon" := Str(row.contactTel)])
  }

  function VehicleBody(row: ApplicationRow): Value {
    Obj(map["kenteken" := row.kenteken, "merk" := row.merk, "model" := row.model,
            "brandstof" := row.brandstof, "bouwjaar" := row.bouwjaar, "kmStand" := row.kmStand])
  }

  function TermsBody(row: ApplicationRow): Value {
    Obj(map["aanschafprijs" := Str(row.aanschafprijs), "aanbetaling" := Str(row.aanbetaling),
            "slottermijn" := Str(row.slottermijn), "looptijd" := TermValue(row.looptijd),
            "renteStaffel" := Str(row.renteStaffel)])
  }

  /** A value `x || null` can store: null, or something truthy. */
  predicate NullOrTruthy(v: Value) {
    v.Null? || Truthy(v)
  }

  /** A money text the sanitiser leaves as it is and that is not empty. */
  predicate CleanMoney(s: String) {
    s != [] && forall k :: 0 <= k < |s| ==> IsMoneyChar(s[k])
  }

  /** The rows that come back unchanged when sent again as a form: their
      optional fields are null or truthy, their money texts clean, their
      rate letter present and their uploads a list. */
  predicate StoredRow(row: ApplicationRow) {
    && NullOrTruthy(row.kenteken) && NullOrTruthy(row.merk) && NullOrTruthy(row.model)
    && NullOrTruthy(row.brandstof) && NullOrTruthy(row.bouwjaar) && NullOrTruthy(row.kmStand)
    && NullOrTruthy(row.opmerkingen)
    && CleanMoney(row.aanschafprijs) && CleanMoney(row.aanbetaling) && CleanMoney(row.slottermijn)
    && row.renteStaffel != [] && row.uploads.Arr?
  }

  /** Round trip: building the row from the body that describes a stored
      row gives that row back, so the mapping loses nothing of such a row. */
  lemma RowRoundTrip(row: ApplicationRow)
    requires StoredRow(row)
    ensures BuildRow(row.dealerEmail, RowBody(row), row.dealerId) == row
  {
    var body := RowBody(row);
    TopFields(row);
    ContactFields(row);
    VehicleFields(row);
    TermsFields(row);
    RebuildFromFields(row, body);
  }

  /** Any body whose fields show the row's values rebuilds the row. */
  lemma RebuildFromFields(row: ApplicationRow, body: Value)
    requires StoredRow(row)
    requires Prop(body, "kvkNummer") == Str(row.kvkNummer)
    requires Prop(body, "kvkJong") == Bool(row.kvkJong)
    requires Prop(body, "opmerkingen") == row.opmerkingen
    requires Prop(body, "uploads") == row.uploads
    requires Field2(body, "contact", "naam") == Str(row.contactNaam)
    requires Field2(body, "contact", "email") == Str(row.contactEmail)
    requires Field2(body, "contact", "telefoon") == Str(row.contactTel)
    requires Field2(body, "voertuig", "kenteken") == row.kenteken
    requires Field2(body, "voertuig", "merk") == row.merk
    requires Field2(body, "voertuig", "model") == row.model
    requires Field2(body, "voertuig", "brandstof") == row.brandstof
    requires Field2(body, "voertuig", "bouwjaar") == row.bouwjaar
    requires Field2(body, "voertuig", "kmStand") == row.kmStand
    requires Field2(body, "condities", "aanschafprijs") == Str(row.aanschafprijs)
    requires Field2(body, "condities", "aanbetaling") == Str(row.aanbetaling)
    requires Field2(body, "condities", "slottermijn") == Str(row.slottermijn)
    requires Field2(body, "condities", "looptijd") == TermValue(row.looptijd)
    requires Field2(body, "condities", "renteStaffel") == Str(row.renteStaffel)
    ensures BuildRow(row.dealerEmail, body, row.dealerId) == row
  {
    var r := BuildRow(row.dealerEmail, body, row.dealerId);
    RebuildTop(row, body, r);
    RebuildVehicle(row, body, r);
    RebuildTerms(row, body, r);
  }

  lemma RebuildTop(row: ApplicationRow, body: Value, r: ApplicationRow)
    requires r == BuildRow(row.dealerEmail, body, row.dealerId)
    requires NullOrTruthy(row.opmerkingen) && row.uploads.Arr?
    requires Prop(body, "kvkNummer") == Str(row.kvkNummer)
    requires Prop(body, "kvkJong") == Bool(row.kvkJong)
    requires Prop(body, "opmerkingen") == row.opmerkingen
    requires Prop(body, "uploads") == row.uploads
    requires Field2(body, "contact", "naam") == Str(row.contactNaam)
    requires Field2(body, "contact", "email") == Str(row.contactEmail)
    requires Field2(body, "contact", "telefoon") == Str(row.contactTel)
    ensures r.dealerEmail == row.dealerEmail && r.dealerId == row.dealerId
    ensures r.kvkNummer == row.kvkNummer && r.kvkJong == row.kvkJong
    ensures r.contactNaam == row.contactNaam && r.contactEmail == row.contactEmail
    ensures r.contactTel == row.contactTel
    ensures r.opmerkingen == row.opmerkingen && r.uploads == row.uploads
  {
  }

  lemma RebuildVehicle(row: ApplicationRow, body: Value, r: ApplicationRow)
    requires r == BuildRow(row.dealerEmail, body, row.dealerId)
    requires NullOrTruthy(row.kenteken) && NullOrTruthy(row.merk) && NullOrTruthy(row.model)
    requires NullOrTruthy(row.brandstof) && NullOrTruthy(row.bouwjaar) && NullOrTruthy(row.kmStand)
    requires Field2(body, "voertuig", "kenteken") == row.kenteken
    requires Field2(body, "voertuig", "merk") == row.merk
    requires Field2(body, "voertuig", "model") == row.model
    requires Field2(body, "voertuig", "brandstof") == row.brandstof
    requires Field2(body, "voertuig", "bouwjaar") == row.bouwjaar
    requires Field2(body, "voertuig", "kmStand") == row.kmStand
    ensures r.kenteken == row.kenteken && r.merk == row.merk && r.model == row.model
    ensures r.brandstof == row.brandstof && r.bouwjaar == row.bouwjaar && r.kmStand == row.kmStand
  {
  }

  lemma RebuildTerms(row: ApplicationRow, body: Value, r: ApplicationRow)
    requires r == BuildRow(row.dealerEmail, body, row.dealerId)
    requires CleanMoney(row.aanschafprijs) && CleanMoney(row.aanbetaling) && CleanMoney(row.slottermijn)
    requires row.renteStaffel != []
    requires Field2(body, "condities", "aanschafprijs") == Str(row.aanschafprijs)
    requires Field2(body, "condities", "aanbetaling") == Str(row.aanbetaling)
    requires Field2(body, "condities", "slottermijn") == Str(row.slottermijn)
    requires Field2(body, "condities", "looptijd") == TermValue(row.looptijd)
    requires Field2(body, "condities", "renteStaffel") == Str(row.renteStaffel)
    ensures r.aanschafprijs == row.aanschafprijs && r.aanbetaling == row.aanbetaling
    ensures r.slottermijn == row.slottermijn && r.looptijd == row.looptijd
    ensures r.renteStaffel == row.renteStaffel
  {
    CleanMoneyKept(row.aanschafprijs);
    CleanMoneyKept(row.aanbetaling);
    CleanMoneyKept(row.slottermijn);
    if row.looptijd.NaN? {
      NotNumeral(TermValue(row.looptijd).s);
    }
  }

  /** A clean money text is stored as it is. */
  lemma CleanMoneyKept(s: String)
    requires CleanMoney(s)
    ensures MoneyField(Str(s)) == s
  {
  }

  /** A text that is not a numeral (and has no surrounding white space to
      trim) converts to `NaN`. */
  lemma NotNumeral(s: String)
    requires s != [] && Trimmed(s) && !AllDigits(s)
    ensures StringToNumber(s) == NaN
  {
  }

  lemma TopFields(row: ApplicationRow)
    ensures var body := RowBody(row);
            && Prop(body, "kvkNummer") == Str(row.kvkNummer)
            && Prop(body, "kvkJong") == Bool(row.kvkJong)
            && Prop(body, "contact") == ContactBody(row)
            && Prop(body, "voertuig") == VehicleBody(row)
            && Prop(body, "condities") == TermsBody(row)
            && Prop(body, "opmerkingen") == row.opmerkingen
            && Prop(body, "uploads") == row.uploads
  {
  }

  lemma ContactFields(row: ApplicationRow)
    ensures var c := ContactBody(row);
            && Prop(c, "naam") == Str(row.contactNaam)
            && Prop(c, "email") == Str(row.contactEmail)
            && Prop(c, "telefoon") == Str(row.contactTel)
  {
  }

  lemma VehicleFields(row: ApplicationRow)
    ensures var v := VehicleBody(row);
            && Prop(v, "kenteken") == row.kenteken && Prop(v, "merk") == row.merk
            && Prop(v, "model") == row.model && Prop(v, "brandstof") == row.brandstof
            && Prop(v, "bouwjaar") == row.bouwjaar && Prop(v, "kmStand") == row.kmStand
  {
  }

  lemma TermsFields(row: ApplicationRow)
    ensures var c := TermsBody(row);
            && Prop(c, "aanschafprijs") == Str(row.aanschafprijs)
            && Prop(c, "aanbetaling") == Str(row.aanbetaling)
            && Prop(c, "slottermijn") == Str(row.slottermijn)
            && Prop(c, "looptijd") == TermValue(row.looptijd)
            && Prop(c, "renteStaffel") == Str(row.renteStaffel)
  {
  }

  /** Whatever e-mail the body claims, the row is owned by the caller. */
  lemma OwnerFromSession(session: Option<Session>, claimed: String, dealerId: Option<String>)
    requires SignedIn(session)
    ensures var body := Obj(map["dealerEmail" := Str(claimed)]);
            CreateApplication(session, Some(body), dealerId).body.dealerEmail == session.value.email
  {
  }
}

=== FILE: email_templates.dfy ===
/** The HTML bodies of the two e-mails sent for a new application: the
    confirmation to the customer and the notice to the office.  The JSON
    text of the vehicle and conditions objects is a parameter. */
module EmailTemplates {
  import opened Text

  // ---------------------------------------------------------------------
  // escapeHtml
  // ---------------------------------------------------------------------

  /** `s.replace(/c/g, rep)` for a single character `c`. */
  function ReplaceChar(s: String, c: char, rep: String): (r: String)
    ensures c !in s ==> r == s
    ensures c !in rep ==> c !in r
    ensures |rep| >= 1 ==> |r| >= |s|
  {
    if s == [] then []
    else (if s[0] == c then rep else [s[0]]) + ReplaceChar(s[1..], c, rep)
  }

  lemma {:induction false} ReplaceCharAppend(a: String, b: String, c: char, rep: String)
    ensures ReplaceChar(a + b, c, rep) == ReplaceChar(a, c, rep) + ReplaceChar(b, c, rep)
  {
    if a != [] {
      assert (a + b)[0] == a[0];
      assert (a + b)[1..] == a[1..] + b;
      ReplaceCharAppend(a[1..], b, c, rep);
    } else {
      assert a + b == b;
    }
  }

  /** A replace whose replacement lacks `d` does not bring `d` in. */
  lemma {:induction false} ReplaceCharNoNew(s: String, c: char, rep: String, d: char)
    requires d !in s && d !in rep
    ensures d !in ReplaceChar(s, c, rep)
  {
    if s != [] {
      ReplaceCharNoNew(s[1..], c, rep, d);
    }
  }

  /** `escapeHtml`: the three global replaces, in the source's order.  The
      result has no angle brackets, is never shorter, and is the input
      itself when that has nothing to escape. */
  function EscapeHtml(s: String): (r: String)
    ensures '<' !in r && '>' !in r
    ensures |r| >= |s|
    ensures '&' !in s && '<' !in s && '>' !in s ==> r == s
  {
    var amp := ReplaceChar(s, '&', "&amp;");
    var lt := ReplaceChar(amp, '<', "&lt;");
    ReplaceCharNoNew(lt, '>', "&gt;", '<');
    ReplaceChar(lt, '>', "&gt;")
  }

  /** The entity written for one character. */
  function EscapeChar(c: char): (r: String)
    ensures '<' !in r && '>' !in r
    ensures |r| >= 1
    ensures |r| == 1 <==> c != '&' && c != '<' && c != '>'
  {
    if c == '&' then "&amp;"
    else if c == '<' then "&lt;"
    else if c == '>' then "&gt;"
    else [c]
  }

  /** Reference definition: every character replaced by its entity. */
  function EscapeEach(s: String): (r: String)
    ensures |r| >= |s|
  {
    if s == [] then [] else EscapeChar(s[0]) + EscapeEach(s[1..])
  }

  /** The three sequential replaces equal the per-character map: the
      entities the first replace writes contain no '<' or '>', so the later
      replaces leave them alone. */
  lemma {:induction false} EscapeHtmlIsCharMap(s: String)
    ensures EscapeHtml(s) == EscapeEach(s)
  {
    if s != [] {
      var c := s[0];
      var t := s[1..];
      assert s == [c] + t;
      ReplaceCharAppend([c], t, '&', "&amp;");
      var a1 := ReplaceChar([c], '&', "&amp;");
      var b1 := ReplaceChar(t, '&', "&amp;");
      ReplaceCharAppend(a1, b1, '<', "&lt;");
      var a2 := ReplaceChar(a1, '<', "&lt;");
      var b2 := ReplaceChar(b1, '<', "&lt;");
      ReplaceCharAppend(a2, b2, '>', "&gt;");
      SingleCharEscape(c);
      EscapeHtmlIsCharMap(t);
    }
  }

  lemma SingleCharEscape(c: char)
    ensures ReplaceChar(ReplaceChar(ReplaceChar([c], '&', "&amp;"), '<', "&lt;"), '>', "&gt;")
            == EscapeChar(c)
  {
    assert [c][1..] == [];
    if c == '&' {
      assert '<' !in "&amp;" && '>' !in "&amp;";
    } else if c == '<' {
      assert '>' !in "&lt;";
    }
  }

  /** A character that is none of `&`, `<`, `>`. */
  predicate Harmless(c: char) {
    c != '&' && c != '<' && c != '>'
  }

  /** Escaping leaves a string alone exactly when it has none of the three
      characters; otherwise it grows. */
  lemma EscapeHtmlUnchangedIff(s: String)
    ensures EscapeHtml(s) == s <==> forall k :: 0 <= k < |s| ==> Harmless(s[k])
  {
    EscapeHtmlIsCharMap(s);
    EscapeEachFixed(s);
  }

  lemma {:induction false} EscapeEachFixed(s: String)
    ensures (forall k :: 0 <= k < |s| ==> Harmless(s[k])) ==> EscapeEach(s) == s
    ensures (exists k :: 0 <= k < |s| && !Harmless(s[k])) ==> |EscapeEach(s)| > |s|
  {
    if s != [] {
      EscapeEachFixed(s[1..]);
      if exists k :: 0 <= k < |s| && !Harmless(s[k]) {
        var k :| 0 <= k < |s| && !Harmless(s[k]);
        if k > 0 {
          assert !Harmless(s[1..][k - 1]);
        }
      }
      if forall k :: 0 <= k < |s| ==> Harmless(s[k]) {
        assert forall k :: 0 <= k < |s[1..]| ==> Harmless(s[1..][k]);
      }
    }
  }

  // ---------------------------------------------------------------------
  // Templates
  // ---------------------------------------------------------------------

  /** `x || fallback` for a string. */
  function OrText(x: String, fallback: String): (r: String)
    ensures x == [] ==> r == fallback
    ensures x != [] ==> r == x
  {
    if x == [] then fallback else x
  }

  /** ` #n` after the heading when there is an application number. */
  function NumberSuffix(appNumber: String): String {
    if appNumber != [] then " #" + appNumber else ""
  }

  /** `[merk, model].filter(Boolean).join(" ")`. */
  function MerkModel(merk: String, model: String): (r: String) {
    Join((if merk != [] then [merk] else []) + (if model != [] then [model] else []), " ")
  }

  /** The template text: a newline, then the lines joined by newlines. */
  function Html(lines: seq<String>): String {
    "\n" + Join(lines, "\n")
  }

  const DivOpen: String := "  <div style=\"font-family:Arial,sans-serif;line-height:1.5\">"
  const DivClose: String := "  </div>"
  const Euro: String := "\U{20AC}"

  /** `<h2>title</h2>`, with ` #n` before the closing tag when there is an
      application number. */
  function Heading(title: String, appNumber: String): String {
    "    <h2>" + title + NumberSuffix(appNumber) + "</h2>"
  }

  /** A list item `<li>caption: value</li>`. */
  function Item(caption: String, value: String): String {
    "      <li>" + caption + ": " + value + "</li>"
  }

  /** What the customer mail is filled in with; a missing value is "". */
  datatype CustomerParams = CustomerParams(
    naam: String, appNumber: String,
    kenteken: String, merk: String, model: String, bouwjaar: String,
    aanschafprijs: String, aanbetaling: String, slottermijn: String,
    looptijd: String, rente: String)

  /** The Merk/Model value: the names, then the year in parentheses when it
      is given. */
  function VehicleValue(merk: String, model: String, bouwjaar: String): String {
    MerkModel(merk, model) + (if bouwjaar != [] then " (" + bouwjaar + ")" else "")
  }

  function CustomerLines(p: CustomerParams): (r: seq<String>)
    ensures |r| == 20
    ensures r[1] == Heading("Bevestiging lease-aanvraag", p.appNumber)
    ensures r[2] == "    <p>Hoi " + OrText(p.naam, "klant") + ",</p>"
    ensures r[6] == Item("Kenteken", OrText(p.kenteken, "Onbekend"))
    ensures r[7] == Item("Merk/Model", VehicleValue(p.merk, p.model, p.bouwjaar))
    ensures r[11] == Item("Aanschafprijs", Euro + OrText(p.aanschafprijs, "-"))
    ensures r[12] == Item("Aanbetaling", Euro + OrText(p.aanbetaling, "0"))
    ensures r[13] == Item("Slottermijn", Euro + OrText(p.slottermijn, "0"))
    ensures r[14] == Item("Looptijd", OrText(p.looptijd, "-") + " mnd")
    ensures r[15] == Item("Rente", OrText(p.rente, "-") + "%")
  {
    var heading := Heading("Bevestiging lease-aanvraag", p.appNumber);
    var greeting := "    <p>Hoi " + OrText(p.naam, "klant") + ",</p>";
    var vehicle := [Item("Kenteken", OrText(p.kenteken, "Onbekend")),
                    Item("Merk/Model", VehicleValue(p.merk, p.model, p.bouwjaar))];
    var terms := [Item("Aanschafprijs", Euro + OrText(p.aanschafprijs, "-")),
                  Item("Aanbetaling", Euro + OrText(p.aanbetaling, "0")),
                  Item("Slottermijn", Euro + OrText(p.slottermijn, "0")),
                  Item("Looptijd", OrText(p.looptijd, "-") + " mnd"),
                  Item("Rente", OrText(p.rente, "-") + "%")];
    [DivOpen, heading, greeting, CustomerIntro, "    <h3>Voertuig</h3>", "    <ul>"]
      + vehicle
      + ["    </ul>", "    <h3>Condities</h3>", "    <ul>"]
      + terms
      + ["    </ul>", CustomerOutro, "    <p>Groet,<br/>AutoAgent</p>", DivClose]
  }

  const CustomerIntro: String :=
    "    <p>We hebben je aanvraag goed ontvangen. Hieronder een samenvatting:</p>"
  const CustomerOutro: String := "    <p>We nemen zo snel mogelijk contact met je op.</p>"

  /** `customerEmailHtml`: every line of the template occurs in the mail. */
  function CustomerEmailHtml(p: CustomerParams): (r: String)
    ensures forall k :: 0 <= k < 20 ==> Contains(r, CustomerLines(p)[k])
  {
    var lines := CustomerLines(p);
    forall k | 0 <= k < |lines|
      ensures Contains(Html(lines), lines[k])
    {
      LineInHtml(lines, k);
    }
    Html(lines)
  }

  /** What the office mail is filled in with. */
  datatype InternalParams = InternalParams(
    appNumber: String, kvkNummer: String, kvkJong: bool,
    naam: String, email: String, telefoon: String,
    voertuigJson: String, conditiesJson: String, opmerkingen: String)

  /** The remarks block: absent for empty remarks, escaped otherwise. */
  function RemarksSection(opmerkingen: String): (r: String)
    ensures r == [] <==> opmerkingen == []
    ensures opmerkingen != [] ==> r == RemarksOpen + EscapeHtml(opmerkingen) + "</p>"
    ensures '<' !in EscapeHtml(opmerkingen) && '>' !in EscapeHtml(opmerkingen)
  {
    if opmerkingen != [] then RemarksOpen + EscapeHtml(opmerkingen) + "</p>" else ""
  }

  const RemarksOpen: String := "<h3>Opmerkingen</h3><p>"

  /** A `<pre>` block holding escaped JSON text. */
  function Preformatted(json: String): String {
    "    <pre>" + EscapeHtml(json) + "</pre>"
  }

  function InternalLines(p: InternalParams): (r: seq<String>)
    ensures |r| == 19
    ensures r[1] == Heading("Nieuwe lease-aanvraag", p.appNumber)
    ensures r[11] == Item("KvK jonger dan 6 mnd", if p.kvkJong then "Ja" else "Nee")
    ensures r[17] == "    " + RemarksSection(p.opmerkingen)
  {
    InternalLayout(Heading("Nieuwe lease-aanvraag", p.appNumber), p.naam, p.email, p.telefoon,
                   p.kvkNummer, if p.kvkJong then "Ja" else "Nee",
                   Preformatted(p.voertuigJson), Preformatted(p.conditiesJson),
                   "    " + RemarksSection(p.opmerkingen))
  }

  /** The office template's lines around its filled-in parts. */
  function InternalLayout(heading: String, naam: String, email: String, telefoon: String,
                          kvkNummer: String, jong: String, voertuig: String, condities: String,
                          remarks: String): (r: seq<String>)
    ensures |r| == 19
    ensures r[1] == heading && r[11] == Item("KvK jonger dan 6 mnd", jong) && r[17] == remarks
  {
    [ DivOpen,
      heading,
      "    <h3>Contact</h3>",
      "    <ul>",
      Item("Naam", naam),
      Item("Email", email),
      Item("Telefoon", telefoon),
      "    </ul>",
      "    <h3>KvK</h3>",
      "    <ul>",
      Item("KvK-nummer", kvkNummer),
      Item("KvK jonger dan 6 mnd", jong),
      "    </ul>",
      "    <h3>Voertuig</h3>",
      voertuig,
      "    <h3>Condities</h3>",
      condities,
      remarks,
      DivClose ]
  }

  /** `internalEmailHtml`: every line of the template occurs in the mail. */
  function InternalEmailHtml(p: InternalParams): (r: String)
    ensures forall k :: 0 <= k < 19 ==> Contains(r, InternalLines(p)[k])
  {
    var lines := InternalLines(p);
    forall k | 0 <= k < |lines|
      ensures Contains(Html(lines), lines[k])
    {
      LineInHtml(lines, k);
    }
    Html(lines)
  }

  lemma LineInHtml(lines: seq<String>, k: nat)
    requires k < |lines|
    ensures Contains(Html(lines), lines[k])
  {
    LineInJoin(lines, "\n", k);
    ContainsAfterPrefix("\n", Join(lines, "\n"), lines[k]);
  }

  /** Every line occurs in the joined text. */
  lemma {:induction false} LineInJoin(lines: seq<String>, sep: String, k: nat)
    requires k < |lines|
    ensures Contains(Join(lines, sep), lines[k])
  {
    if |lines| == 1 {
      assert OccursAt(lines[0], lines[0], 0);
    } else if k == 0 {
      assert Join(lines, sep) == lines[0] + (sep + Join(lines[1..], sep));
      ContainsPrefix(lines[0], sep + Join(lines[1..], sep));
    } else {
      LineInJoin(lines[1..], sep, k - 1);
      assert Join(lines, sep) == (lines[0] + sep) + Join(lines[1..], sep);
      ContainsAfterPrefix(lines[0] + sep, Join(lines[1..], sep), lines[k]);
    }
  }

  lemma ContainsPrefix(a: String, b: String)
    ensures Contains(a + b, a)
  {
    assert (a + b)[0..|a|] == a;
    assert OccursAt(a + b, a, 0);
  }

  lemma ContainsAfterPrefix(a: String, b: String, t: String)
    requires Contains(b, t)
    ensures Contains(a + b, t)
  {
    var i: nat :| i <= |b| && OccursAt(b, t, i);
    assert (a + b)[|a| + i..|a| + i + |t|] == b[i..i + |t|];
    assert OccursAt(a + b, t, |a| + i);
  }

  // ---------------------------------------------------------------------
  // Properties of the templates
  // ---------------------------------------------------------------------

  /** A heading ends in " #n" exactly when there is a number. */
  lemma HeadingNumber(title: String, appNumber: String)
    ensures appNumber != [] ==> Heading(title, appNumber) == "    <h2>" + title + " #" + appNumber + "</h2>"
    ensures appNumber == [] ==> Heading(title, appNumber) == "    <h2>" + title + "</h2>"
  {
  }

  /** The customer mail's fallbacks: "klant" for the greeting, "Onbekend"
      for the plate, "-" for price, term and rate, "0" for down payment
      and balloon. */
  lemma CustomerFallbacks(p: CustomerParams)
    ensures p.naam == [] ==> CustomerLines(p)[2] == "    <p>Hoi klant,</p>"
    ensures p.kenteken == [] ==> CustomerLines(p)[6] == Item("Kenteken", "Onbekend")
    ensures p.aanschafprijs == [] ==> CustomerLines(p)[11] == Item("Aanschafprijs", Euro + "-")
    ensures p.aanbetaling == [] ==> CustomerLines(p)[12] == Item("Aanbetaling", Euro + "0")
    ensures p.slottermijn == [] ==> CustomerLines(p)[13] == Item("Slottermijn", Euro + "0")
    ensures p.looptijd == [] ==> CustomerLines(p)[14] == Item("Looptijd", "- mnd")
    ensures p.rente == [] ==> CustomerLines(p)[15] == Item("Rente", "-%")
  {
  }

  /** The make and model are joined by one space when both are given; a
      missing one leaves no stray space. */
  lemma MerkModelCases(merk: String, model: String)
    ensures merk != [] && model != [] ==> MerkModel(merk, model) == merk + " " + model
    ensures merk != [] && model == [] ==> MerkModel(merk, model) == merk
    ensures merk == [] ==> MerkModel(merk, model) == model
  {
    if merk != [] && model != [] {
      assert [merk] + [model] == [merk, model];
      assert [merk, model][1..] == [model];
      assert Join([model], " ") == model;
    } else if merk != [] {
      assert [merk] + [] == [merk];
    } else if model != [] {
      assert [] + [model] == [model];
    }
  }

  /** The year appears in parentheses only when it is given. */
  lemma BouwjaarSuffix(merk: String, model: String, bouwjaar: String)
    ensures bouwjaar == [] ==> VehicleValue(merk, model, bouwjaar) == MerkModel(merk, model)
    ensures bouwjaar != [] ==> VehicleValue(merk, model, bouwjaar) == MerkModel(merk, model) + " (" + bouwjaar + ")"
  {
  }
}

=== FILE: http.dfy ===
/** What the route handlers receive from the session layer and what they
    answer.  The session lookup itself is outside the model: a handler gets
    the session (or its absence) as a parameter. */
module Http {
  import opened Text

  /** The signed-in user as the session exposes it.  An absent e-mail or
      role is the empty string. */
  datatype Session = Session(email: String, role: String)

  /** `session?.user?.email` is truthy. */
  predicate SignedIn(session: Option<Session>) {
    session.Some? && session.value.email != []
  }

  /** `session.user.role === "admin"`. */
  predicate IsAdmin(session: Option<Session>) {
    session.Some? && session.value.role == "admin"
  }

  datatype Option<+T> = None | Some(value: T)

  /** A JSON reply: a success status with its body, or an error status with
      its message. */
  datatype Response<+T> =
    | Reply(status: int, body: T)
    | Fail(status: int, message: String)

  const Ok := 200
  const Created := 201
  const BadRequest := 400
  const Unauthorized := 401
  const Forbidden := 403
  const NotFound := 404
  const Conflict := 409
  /** An exception: the RDW handler catches it and answers with this status,
      and an exception no handler catches becomes a reply with it too. */
  const InternalError := 500
}

=== FILE: js.dfy ===
/** The JavaScript values a parsed JSON request body can hold, and the three
    JavaScript operations the route handlers apply to them: optional
    property access (`a?.b`), truthiness (`a || b`, `!!a`) and `String(a)`.
    Numbers are integers; see README for what that leaves out. */
module Js {
  import opened Text

  datatype Value =
    | Undefined
    | Null
    | Bool(b: bool)
    | Num(n: int)
    | Str(s: String)
    | Arr(items: seq<Value>)
    | Obj(fields: map<String, Value>)

  /** JavaScript truthiness: `undefined`, `null`, `false`, `0` and `""` are falsy. */
  predicate Truthy(v: Value) {
    match v
    case Undefined => false
    case Null => false
    case Bool(b) => b
    case Num(n) => n != 0
    case Str(s) => s != []
    case Arr(_) => true
    case Obj(_) => true
  }

  /** `a || b`. */
  function Or(a: Value, b: Value): (r: Value)
    ensures Truthy(a) ==> r == a
    ensures !Truthy(a) ==> r == b
  {
    if Truthy(a) then a else b
  }

  /** `v?.key`: a field of an object; `undefined` for a missing field and
      for any value that is not an object. */
  function Prop(v: Value, key: String): (r: Value)
    ensures !v.Obj? ==> r == Undefined
    ensures v.Obj? && key in v.fields ==> r == v.fields[key]
  {
    match v
    case Obj(m) => if key in m then m[key] else Undefined
    case _ => Undefined
  }

  /** `String(n)` for an integer. */
  function IntToString(n: int): (r: String)
    ensures n >= 0 ==> r == NatToDecimal(n)
    ensures n < 0 ==> r == ['-'] + NatToDecimal(-n)
  {
    if n >= 0 then NatToDecimal(n) else ['-'] + NatToDecimal(-n)
  }

  /** `String(v)`.  An array is written as its elements joined with ",",
      where `null` and `undefined` elements become empty. */
  function ToJsString(v: Value): (r: String)
    ensures v.Str? ==> r == v.s
  {
    match v
    case Undefined => "undefined"
    case Null => "null"
    case Bool(b) => if b then "true" else "false"
    case Num(n) => IntToString(n)
    case Str(s) => s
    case Arr(items) => Join(ElementStrings(items), ",")
    case Obj(_) => "[object Object]"
  }

  function ElementStrings(items: seq<Value>): (r: seq<String>)
    ensures |r| == |items|
  {
    if items == [] then []
    else
      var head := if items[0].Null? || items[0].Undefined? then [] else ToJsString(items[0]);
      [head] + ElementStrings(items[1..])
  }

  /** `String(x || fallback)`. */
  function TextOr(x: Value, fallback: String): (r: String)
    ensures Truthy(x) ==> r == ToJsString(x)
    ensures !Truthy(x) ==> r == fallback
    ensures x.Str? && x.s != [] ==> r == x.s
  {
    ToJsString(Or(x, Str(fallback)))
  }

  /** The result of `Number(v)`: an integer or `NaN`. */
  datatype Number = Finite(value: int) | NaN

  /** `Number(s)` for a string: it counts as a number only when, trimmed,
      it is empty (0) or a plain decimal numeral. */
  function StringToNumber(s: String): (r: Number)
    ensures Trim(s) == [] ==> r == Finite(0)
    ensures r.Finite? ==> r.value >= 0
  {
    var t := Trim(s);
    if t == [] then Finite(0)
    else if AllDigits(t) then Finite(DecimalValue(t))
    else NaN
  }

  /** `Number(v)` for the values a form sends.  An array is converted
      through its string form, so `[]` is 0 and `["12"]` is 12. */
  function ToNumber(v: Value): (r: Number)
    ensures v.Num? ==> r == Finite(v.n)
    ensures !Truthy(v) && !v.Undefined? ==> r == Finite(0)
    ensures v.Str? ==> r == StringToNumber(v.s)
    ensures v.Arr? ==> r == StringToNumber(ToJsString(v))
    ensures v.Arr? && v.items == [] ==> r == Finite(0)
  {
    match v
    case Undefined => NaN
    case Null => Finite(0)
    case Bool(b) => Finite(if b then 1 else 0)
    case Num(n) => Finite(n)
    case Str(s) => StringToNumber(s)
    case Arr(_) => StringToNumber(ToJsString(v))
    case Obj(_) => NaN
  }

  /** An array converts like the string it prints as: `Number([])` is 0 and
      `Number(["12"])` is 12. */
  lemma ArrayNumbers()
    ensures ToNumber(Arr([])) == Finite(0)
    ensures ToNumber(Arr([Str("12")])) == Finite(12)
  {
    var twelve: String := "12";
    assert [Str(twelve)][1..] == [];
    assert ElementStrings([Str(twelve)]) == [twelve];
    assert ToJsString(Arr([Str(twelve)])) == twelve;
    assert Trimmed(twelve);
    assert AllDigits(twelve);
    assert DecimalValue(twelve) == 12 by {
      assert twelve[..1] == "1";
      assert "1"[..0] == [];
    }
    assert StringToNumber(twelve) == Finite(12);
  }
}

=== FILE: ordering.dfy ===
/** `orderBy: { createdAt: "desc" }`: a list sorted newest first.  The store's
    order among equal keys is unspecified; this model keeps such records in
    their store order. */
module Ordering {

  /** Each element's key is at least the key of every later element. */
  predicate Descending<T>(s: seq<T>, key: T -> int) {
    forall i, j :: 0 <= i < j < |s| ==> key(s[i]) >= key(s[j])
  }

  /** Places `x` before the first element whose key is smaller. */
  function Insert<T>(x: T, s: seq<T>, key: T -> int): (r: seq<T>)
    requires Descending(s, key)
    ensures Descending(r, key)
    ensures multiset(r) == multiset(s) + multiset{x}
  {
    if s == [] || key(x) >= key(s[0]) then
      PrependDescending(x, s, key);
      [x] + s
    else
      var rest := Insert(x, s[1..], key);
      assert s == [s[0]] + s[1..];
      forall y | y in rest
        ensures key(y) <= key(s[0])
      {
        assert y in multiset(rest);
      }
      PrependDescending(s[0], rest, key);
      [s[0]] + rest
  }

  lemma PrependDescending<T>(h: T, t: seq<T>, key: T -> int)
    requires Descending(t, key)
    requires forall y :: y in t ==> key(y) <= key(h)
    ensures Descending([h] + t, key)
  {
    var r := [h] + t;
    forall i, j | 0 <= i < j < |r|
      ensures key(r[i]) >= key(r[j])
    {
      if i == 0 {
        assert r[j] in t;
      } else {
        assert r[i] == t[i - 1] && r[j] == t[j - 1];
      }
    }
  }

  /** The records of `s`, newest first. */
  function SortDescending<T>(s: seq<T>, key: T -> int): (r: seq<T>)
    ensures Descending(r, key)
    ensures multiset(r) == multiset(s)
    ensures |r| == |s|
  {
    if s == [] then []
    else
      assert s == [s[0]] + s[1..];
      Insert(s[0], SortDescending(s[1..], key), key)
  }
}

=== FILE: pricing.dfy ===
/** Lease pricing (lib/utils.ts): the rate table indexed by the letters
    A..Q, the effective rate for a young or established business, and the
    monthly payment of a lease with a balloon.  Rates are kept in
    hundredths of a percent (1649 stands for 16.49%), which is exactly what
    `Number(x.toFixed(2))` leaves of them; amounts are exact reals. */
module Pricing {
  import opened Text

  /** The term choices offered to the user, in months. */
  const MonthsOptions: seq<String> := ["12", "24", "36", "48", "60", "72"]

  /** The terms are the whole years one through six. */
  lemma MonthsOptionsAreWholeYears()
    ensures |MonthsOptions| == 6
    ensures forall k :: 0 <= k < |MonthsOptions| ==>
      AllDigits(MonthsOptions[k]) && DecimalValue(MonthsOptions[k]) == 12 * (k + 1)
  {
    TwoDigits("12"); TwoDigits("24"); TwoDigits("36");
    TwoDigits("48"); TwoDigits("60"); TwoDigits("72");
  }

  lemma TwoDigits(s: String)
    requires |s| == 2 && AllDigits(s)
    ensures DecimalValue(s) == 10 * DigitValue(s[0]) + DigitValue(s[1])
  {
    assert s[..1][..0] == [];
    assert s[..1][0] == s[0];
    assert DecimalValue(s[..1]) == DigitValue(s[0]);
  }

  /** The first `n` rate letters: the one at index i has the character code
      of "A" plus i. */
  function LettersFromA(n: nat): (r: seq<String>)
    requires n <= 17
    ensures |r| == n
    ensures forall i :: 0 <= i < n ==> r[i] == [('A' as int + i) as char]
  {
    if n == 0 then [] else LettersFromA(n - 1) + [[('A' as int + n - 1) as char]]
  }

  const StaffelLetters: seq<String> := LettersFromA(17)

  lemma StaffelLettersAreAToQ()
    ensures StaffelLetters ==
      ["A", "B", "C", "D", "E", "F", "G", "H", "I", "J", "K", "L", "M", "N", "O", "P", "Q"]
  {
  }

  lemma StaffelLettersDistinct()
    ensures forall i, j :: 0 <= i < j < |StaffelLetters| ==> StaffelLetters[i] != StaffelLetters[j]
  {
    forall i, j | 0 <= i < j < |StaffelLetters|
      ensures StaffelLetters[i] != StaffelLetters[j]
    {
      assert StaffelLetters[i][0] != StaffelLetters[j][0];
    }
  }

  /** The rate the table gives the letter at index `idx`, in hundredths:
      16.49 minus 0.50 per step. */
  function TableRate(idx: int): int {
    1649 - 50 * idx
  }

  /** The `reduce` that builds the table: each letter, from index `idx` on,
      is mapped to its rate. */
  function AddRates(letters: seq<String>, idx: int, acc: map<String, int>): map<String, int> {
    if letters == [] then acc
    else AddRates(letters[1..], idx + 1, acc[letters[0] := TableRate(idx)])
  }

  const BaseRates: map<String, int> := AddRates(StaffelLetters, 0, map[])

  lemma {:induction false} AddRatesFacts(letters: seq<String>, idx: int, acc: map<String, int>)
    requires forall i, j :: 0 <= i < j < |letters| ==> letters[i] != letters[j]
    ensures AddRates(letters, idx, acc).Keys == acc.Keys + set l | l in letters
    ensures forall k :: 0 <= k < |letters| ==> AddRates(letters, idx, acc)[letters[k]] == TableRate(idx + k)
    ensures forall l :: l in acc && l !in letters ==> AddRates(letters, idx, acc)[l] == acc[l]
    decreases letters
  {
    if letters != [] {
      var acc' := acc[letters[0] := TableRate(idx)];
      var rest := letters[1..];
      AddRatesFacts(rest, idx + 1, acc');
      var m := AddRates(letters, idx, acc);
      assert m == AddRates(rest, idx + 1, acc');
      assert (set l | l in letters) == {letters[0]} + set l | l in rest;
      forall k | 0 <= k < |letters|
        ensures m[letters[k]] == TableRate(idx + k)
      {
        if k > 0 {
          assert letters[k] == rest[k - 1];
        } else {
          assert letters[0] !in rest;
        }
      }
    }
  }

  /** The table holds exactly the seventeen letters, the one at index k
      at 16.49 - 0.50 k. */
  lemma BaseRatesTable()
    ensures BaseRates.Keys == set l | l in StaffelLetters
    ensures forall k :: 0 <= k < |StaffelLetters| ==> BaseRates[StaffelLetters[k]] == TableRate(k)
  {
    StaffelLettersDistinct();
    AddRatesFacts(StaffelLetters, 0, map[]);
  }

  /** Every rate in the table lies between 8.49 and 16.49. */
  lemma BaseRatesRange()
    ensures forall l :: l in BaseRates ==> 849 <= BaseRates[l] <= 1649
  {
    BaseRatesTable();
    forall l | l in BaseRates
      ensures 849 <= BaseRates[l] <= 1649
    {
      var k :| 0 <= k < |StaffelLetters| && StaffelLetters[k] == l;
    }
  }

  /** Neighbouring letters differ by exactly half a percent point. */
  lemma BaseRatesStep(k: nat)
    requires k + 1 < |StaffelLetters|
    ensures BaseRate(StaffelLetters[k]) - BaseRate(StaffelLetters[k + 1]) == 50
  {
    BaseRatesTable();
  }

  /** `getEffectiveRate`: the table rate (16.49 for a letter outside the
      table), less one percent point unless the business is younger than
      six months.  Whatever the letter, it lies between 7.49 and 16.49, so
      it is always positive. */
  function EffectiveRate(letter: String, kvkJong: bool): (r: int)
    ensures 749 <= r <= 1649
    ensures exists k | 0 <= k < |StaffelLetters| :: r == TableRate(k) - (if kvkJong then 0 else 100)
  {
    BaseRate(letter) - (if kvkJong then 0 else 100)
  }

  /** `BASE_RATES[letter] ?? 16.49`: always one of the table's rates. */
  function BaseRate(letter: String): (r: int)
    ensures exists k | 0 <= k < |StaffelLetters| :: r == TableRate(k)
    ensures 849 <= r <= 1649
  {
    if letter in BaseRates then
      assert exists k | 0 <= k < |StaffelLetters| :: BaseRates[letter] == TableRate(k) by {
        BaseRatesTable();
        var k :| 0 <= k < |StaffelLetters| && StaffelLetters[k] == letter;
      }
      BaseRates[letter]
    else
      assert TableRate(0) == 1649;
      1649
  }

  /** The rate of the letter at index k: 16.49 - 0.50 k for a young
      business and 15.49 - 0.50 k for an established one. */
  lemma EffectiveRateOfLetter(k: nat)
    requires k < |StaffelLetters|
    ensures EffectiveRate(StaffelLetters[k], true) == 1649 - 50 * k
    ensures EffectiveRate(StaffelLetters[k], false) == 1549 - 50 * k
  {
    BaseRatesTable();
  }

  /** A young business always pays exactly one percent point more. */
  lemma YoungBusinessSurcharge(letter: String)
    ensures EffectiveRate(letter, true) - EffectiveRate(letter, false) == 100
  {
  }

  /** A letter outside the table is priced like "A". */
  lemma UnknownLetterPricedAsA(letter: String, kvkJong: bool)
    requires letter !in StaffelLetters
    ensures EffectiveRate(letter, kvkJong) == EffectiveRate("A", kvkJong)
    ensures EffectiveRate(letter, true) == 1649
  {
    BaseRatesTable();
    StaffelLettersAreAToQ();
    assert StaffelLetters[0] == "A";
  }

  function Max0(x: real): (r: real)
    ensures r >= 0.0 && r >= x
    ensures x >= 0.0 ==> r == x
  {
    if x > 0.0 then x else 0.0
  }

  /** `Math.pow(x, n)` for a whole exponent. */
  function Pow(x: real, n: nat): real {
    if n == 0 then 1.0 else x * Pow(x, n - 1)
  }

  lemma {:induction false} PowBounds(x: real, n: nat)
    requires x > 0.0
    ensures Pow(x, n) > 0.0
    ensures x > 1.0 && n > 0 ==> Pow(x, n) > 1.0
    ensures x < 1.0 && n > 0 ==> Pow(x, n) < 1.0
    ensures x == 1.0 ==> Pow(x, n) == 1.0
  {
    if n > 0 {
      PowBounds(x, n - 1);
      var p := Pow(x, n - 1);
      assert Pow(x, n) == x * p;
      if x > 1.0 {
        assert x * p >= p;
      }
      if x < 1.0 {
        assert x * p <= p;
      }
    }
  }

  /** The monthly interest rate belonging to an annual percentage. */
  function MonthlyRate(annualRatePct: real): real {
    annualRatePct / 100.0 / 12.0
  }

  /** The financed amount: purchase price less the down payment, never
      negative. */
  function Financed(aanschafprijs: real, aanbetaling: real): real {
    Max0(aanschafprijs - aanbetaling)
  }

  /** The discount factor `(1 + i)^n` is positive and differs from 1 unless
      the rate is 0. */
  lemma GrowthFactor(annualRatePct: real, n: nat)
    requires annualRatePct > -1200.0
    ensures Pow(1.0 + MonthlyRate(annualRatePct), n) > 0.0
    ensures n > 0 && MonthlyRate(annualRatePct) > 0.0 ==> Pow(1.0 + MonthlyRate(annualRatePct), n) > 1.0
    ensures n > 0 && MonthlyRate(annualRatePct) < 0.0 ==> Pow(1.0 + MonthlyRate(annualRatePct), n) < 1.0
  {
    PowBounds(1.0 + MonthlyRate(annualRatePct), n);
  }

  /** `calcMonthly`: the payment of an annuity over the financed amount less
      the present value of the balloon, or the straight line down to the
      balloon when the rate is 0.  It is never negative; it is 0 when the
      balloon, grown at the monthly rate over the term, covers the
      financed amount; and at a zero rate without a balloon the payments
      add up to the financed amount. */
  function CalcMonthly(aanschafprijs: real, aanbetaling: real, slottermijn: real,
                       looptijd: nat, annualRatePct: real): (r: real)
    requires annualRatePct > -1200.0
    ensures r >= 0.0
    ensures slottermijn >= Financed(aanschafprijs, aanbetaling) * Pow(1.0 + MonthlyRate(annualRatePct), looptijd)
            ==> r == 0.0
    ensures annualRatePct == 0.0 && slottermijn == 0.0 && looptijd > 0
            ==> r * looptijd as real == Financed(aanschafprijs, aanbetaling)
  {
    var P := Financed(aanschafprijs, aanbetaling);
    var n := looptijd;
    if P == 0.0 || n == 0 then 0.0
    else
      var i := MonthlyRate(annualRatePct);
      if i == 0.0 then
        assert Pow(1.0 + i, n) == 1.0 by {
          PowBounds(1.0 + i, n);
        }
        StraightLine(P, slottermijn, n)
      else AnnuityPayment(P, slottermijn, i, n)
  }

  /** The branch of `calcMonthly` for a zero rate: the financed amount `P`
      is paid down in `n` equal steps to the balloon `FV`.  Nothing is paid
      when the balloon covers `P`, and without a balloon the `n` payments
      add up to `P`. */
  function StraightLine(P: real, FV: real, n: nat): (r: real)
    requires P >= 0.0 && n > 0
    ensures r >= 0.0
    ensures FV >= P ==> r == 0.0
    ensures FV == 0.0 ==> r * n as real == P
  {
    assert FV >= P ==> (P - FV) / n as real <= 0.0 by {
      if FV >= P { NonNegativeQuotient(FV - P, n as real); }
    }
    assert FV == 0.0 ==> (P - FV) / n as real >= 0.0 by {
      if FV == 0.0 { NonNegativeQuotient(P, n as real); }
    }
    Max0((P - FV) / n as real)
  }

  /** The branch of `calcMonthly` for a non-zero monthly rate `i`: the
      balloon `FV` is discounted to its present value and what remains of
      `P` is paid off in `n` equal instalments.  The payment is never
      negative, and it is 0 when the grown balloon covers `P`. */
  function AnnuityPayment(P: real, FV: real, i: real, n: nat): (r: real)
    requires i > -1.0 && i != 0.0 && n > 0
    ensures r >= 0.0
    ensures FV >= P * Pow(1.0 + i, n) ==> r == 0.0
  {
    PowBounds(1.0 + i, n);
    Annuity(P, FV, i, Pow(1.0 + i, n))
  }

  /** The annuity formula with the growth factor `Q = (1 + i)^n` given.  It
      is not negative when `Q` lies on the same side of 1 as `1 + i`, and it
      is 0 when `FV` is at least `P` grown by `Q`. */
  function Annuity(P: real, FV: real, i: real, Q: real): (r: real)
    requires Q > 0.0 && Q != 1.0
    ensures (i > 0.0 && Q > 1.0) || (i < 0.0 && Q < 1.0) ==> r >= 0.0
    ensures FV >= P * Q ==> r == 0.0
  {
    var pvBalloon := FV / Q;
    var L := Max0(P - pvBalloon);
    assert (i > 0.0 && Q > 1.0) || (i < 0.0 && Q < 1.0) ==> (i * L) / (1.0 - 1.0 / Q) >= 0.0 by {
      if (i > 0.0 && Q > 1.0) || (i < 0.0 && Q < 1.0) {
        AnnuitySign(i, L, Q);
      }
    }
    assert FV >= P * Q ==> L == 0.0 by {
      if FV >= P * Q {
        QuotientAtLeast(FV, P, Q);
      }
    }
    assert L == 0.0 ==> (i * L) / (1.0 - 1.0 / Q) == 0.0 by {
      DivisorNonZero(Q);
      if L == 0.0 {
        ZeroQuotient(i * L, 1.0 - 1.0 / Q);
      }
    }
    (i * L) / (1.0 - 1.0 / Q)
  }

  /** Nothing to finance, or no term, costs nothing per month. */
  lemma CalcMonthlyDegenerate(aanschafprijs: real, aanbetaling: real, slottermijn: real,
                              looptijd: nat, annualRatePct: real)
    requires annualRatePct > -1200.0
    requires aanschafprijs <= aanbetaling || looptijd == 0
    ensures CalcMonthly(aanschafprijs, aanbetaling, slottermijn, looptijd, annualRatePct) == 0.0
  {
  }

  /** At a zero rate the payment is the straight line down to the balloon,
      and without a balloon the financed amount spread evenly. */
  lemma CalcMonthlyZeroRate(aanschafprijs: real, aanbetaling: real, slottermijn: real, looptijd: nat)
    requires looptijd > 0
    ensures aanschafprijs > aanbetaling ==>
      CalcMonthly(aanschafprijs, aanbetaling, slottermijn, looptijd, 0.0)
      == Max0((aanschafprijs - aanbetaling - slottermijn) / looptijd as real)
    ensures slottermijn == 0.0 ==>
      CalcMonthly(aanschafprijs, aanbetaling, slottermijn, looptijd, 0.0)
      == Financed(aanschafprijs, aanbetaling) / looptijd as real
  {
    var P := Financed(aanschafprijs, aanbetaling);
    assert MonthlyRate(0.0) == 0.0;
    if slottermijn == 0.0 && P != 0.0 {
      NonNegativeQuotient(P, looptijd as real);
    }
  }

  lemma NonNegativeQuotient(x: real, y: real)
    requires x >= 0.0 && y > 0.0
    ensures x / y >= 0.0
  {
  }

  lemma ZeroQuotient(x: real, d: real)
    requires x == 0.0 && d != 0.0
    ensures x / d == 0.0
  {
  }

  lemma QuotientAtLeast(a: real, b: real, q: real)
    requires q > 0.0 && a >= b * q
    ensures a / q >= b
  {
    assert (a / q) * q == a;
  }

  lemma QuotientAtMost(a: real, b: real, q: real)
    requires q > 0.0 && a <= b * q
    ensures a / q <= b
  {
    assert (a / q) * q == a;
  }

  lemma AnnuityPaymentUnfold(P: real, FV: real, i: real, n: nat)
    requires i > -1.0 && i != 0.0 && n > 0
    ensures Pow(1.0 + i, n) > 0.0 && Pow(1.0 + i, n) != 1.0
    ensures AnnuityPayment(P, FV, i, n) == Annuity(P, FV, i, Pow(1.0 + i, n))
  {
    PowBounds(1.0 + i, n);
  }

  lemma AnnuityUnfold(P: real, FV: real, i: real, Q: real)
    requires Q > 0.0 && Q != 1.0
    ensures Annuity(P, FV, i, Q) == (i * Max0(P - FV / Q)) / (1.0 - 1.0 / Q)
  {
  }

  lemma DivisorNonZero(Q: real)
    requires Q > 0.0 && Q != 1.0
    ensures 1.0 - 1.0 / Q != 0.0
  {
    assert (1.0 - 1.0 / Q) * Q == Q - 1.0;
  }

  /** `i L / (1 - Q^-1)` is not negative when `Q` lies on the same side of 1
      as `1 + i`. */
  lemma AnnuitySign(i: real, L: real, Q: real)
    requires L >= 0.0 && Q > 0.0
    requires (i > 0.0 && Q > 1.0) || (i < 0.0 && Q < 1.0)
    ensures 1.0 - 1.0 / Q != 0.0
    ensures (i * L) / (1.0 - 1.0 / Q) >= 0.0
  {
    var D := 1.0 - 1.0 / Q;
    assert D * Q == Q - 1.0;
    if i > 0.0 {
      assert D > 0.0;
      assert i * L >= 0.0;
      NonNegativeQuotient(i * L, D);
    } else {
      assert D < 0.0;
      assert i * L <= 0.0;
      NonNegativeQuotient(-(i * L), -D);
      assert (i * L) / D == (-(i * L)) / (-D);
    }
  }

  /** The outstanding balance after `k` monthly payments `M` at monthly
      rate `i`, starting from `P`: each month interest is added and the
      payment taken off. */
  function Balance(P: real, i: real, M: real, k: nat): real {
    if k == 0 then P else Balance(P, i, M, k - 1) * (1.0 + i) - M
  }

  /** 1 + q + ... + q^(k-1). */
  function GeometricSum(q: real, k: nat): real {
    if k == 0 then 0.0 else GeometricSum(q, k - 1) * q + 1.0
  }

  lemma {:induction false} GeometricSumIdentity(i: real, k: nat)
    ensures GeometricSum(1.0 + i, k) * i == Pow(1.0 + i, k) - 1.0
    ensures i == 0.0 ==> GeometricSum(1.0 + i, k) == k as real
  {
    if k > 0 {
      GeometricSumIdentity(i, k - 1);
      var q := 1.0 + i;
      var p := Pow(q, k - 1);
      var g := GeometricSum(q, k - 1);
      assert Pow(q, k) == q * p;
      assert GeometricSum(q, k) == g * q + 1.0;
      GeometricStep(i, p, g);
    }
  }

  lemma GeometricStep(i: real, p: real, g: real)
    requires g * i == p - 1.0
    ensures (g * (1.0 + i) + 1.0) * i == (1.0 + i) * p - 1.0
  {
    assert (g * (1.0 + i) + 1.0) * i == (g * i) * (1.0 + i) + i;
  }

  lemma {:induction false} BalanceClosedForm(P: real, i: real, M: real, k: nat)
    ensures Balance(P, i, M, k) == P * Pow(1.0 + i, k) - M * GeometricSum(1.0 + i, k)
  {
    if k > 0 {
      BalanceClosedForm(P, i, M, k - 1);
      ClosedFormStep(P, i, M, k);
    } else {
      BaseCase(P, M, Balance(P, i, M, 0), Pow(1.0 + i, 0), GeometricSum(1.0 + i, 0));
    }
  }

  /** One step of each of the three recursions. */
  /** One month more: the closed form for `k - 1` payments gives the one
      for `k`. */
  lemma ClosedFormStep(P: real, i: real, M: real, k: nat)
    requires k > 0
    requires Balance(P, i, M, k - 1) == P * Pow(1.0 + i, k - 1) - M * GeometricSum(1.0 + i, k - 1)
    ensures Balance(P, i, M, k) == P * Pow(1.0 + i, k) - M * GeometricSum(1.0 + i, k)
  {
    Unfold(P, i, M, k);
    BalanceStep(P, M, Pow(1.0 + i, k - 1), GeometricSum(1.0 + i, k - 1), 1.0 + i,
                Balance(P, i, M, k - 1), Balance(P, i, M, k),
                Pow(1.0 + i, k), GeometricSum(1.0 + i, k));
  }

  lemma Unfold(P: real, i: real, M: real, k: nat)
    requires k > 0
    ensures Balance(P, i, M, k) == Balance(P, i, M, k - 1) * (1.0 + i) - M
    ensures Pow(1.0 + i, k) == (1.0 + i) * Pow(1.0 + i, k - 1)
    ensures GeometricSum(1.0 + i, k) == GeometricSum(1.0 + i, k - 1) * (1.0 + i) + 1.0
  {
  }

  lemma BaseCase(P: real, M: real, B: real, Q: real, G: real)
    requires B == P && Q == 1.0 && G == 0.0
    ensures B == P * Q - M * G
  {
  }

  lemma BalanceStep(P: real, M: real, p: real, g: real, q: real, b: real, B: real, Q: real, G: real)
    requires b == P * p - M * g && B == b * q - M
    requires Q == q * p && G == g * q + 1.0
    ensures B == P * Q - M * G
  {
    assert B == P * (q * p) - M * (g * q + 1.0);
  }

  /** The annuity identity: unless the discounted balloon covers the
      financed amount, paying `calcMonthly` every month for the whole term
      leaves exactly the balloon outstanding. */
  lemma CalcMonthlyAmortizes(aanschafprijs: real, aanbetaling: real, slottermijn: real,
                             looptijd: nat, annualRatePct: real)
    requires annualRatePct > -1200.0
    requires aanschafprijs > aanbetaling && looptijd > 0
    requires slottermijn <= Financed(aanschafprijs, aanbetaling) * Pow(1.0 + MonthlyRate(annualRatePct), looptijd)
    ensures Balance(Financed(aanschafprijs, aanbetaling), MonthlyRate(annualRatePct),
                    CalcMonthly(aanschafprijs, aanbetaling, slottermijn, looptijd, annualRatePct),
                    looptijd) == slottermijn
  {
    var P := Financed(aanschafprijs, aanbetaling);
    var i := MonthlyRate(annualRatePct);
    var M := CalcMonthly(aanschafprijs, aanbetaling, slottermijn, looptijd, annualRatePct);
    CalcMonthlyBranches(aanschafprijs, aanbetaling, slottermijn, looptijd, annualRatePct);
    if i == 0.0 {
      ZeroRateBalance(P, slottermijn, looptijd, M);
    } else {
      AnnuityBalance(P, slottermijn, i, looptijd);
    }
  }

  /** For a positive financed amount and term, the payment is the straight
      line at a zero rate and the annuity otherwise. */
  lemma CalcMonthlyBranches(aanschafprijs: real, aanbetaling: real, slottermijn: real,
                            looptijd: nat, annualRatePct: real)
    requires annualRatePct > -1200.0
    requires aanschafprijs > aanbetaling && looptijd > 0
    ensures Financed(aanschafprijs, aanbetaling) == aanschafprijs - aanbetaling
    ensures MonthlyRate(annualRatePct) > -1.0
    ensures MonthlyRate(annualRatePct) == 0.0 ==>
      CalcMonthly(aanschafprijs, aanbetaling, slottermijn, looptijd, annualRatePct)
      == Max0((Financed(aanschafprijs, aanbetaling) - slottermijn) / looptijd as real)
    ensures MonthlyRate(annualRatePct) != 0.0 ==>
      CalcMonthly(aanschafprijs, aanbetaling, slottermijn, looptijd, annualRatePct)
      == AnnuityPayment(Financed(aanschafprijs, aanbetaling), slottermijn, MonthlyRate(annualRatePct), looptijd)
  {
  }

  lemma ZeroRateBalance(P: real, FV: real, n: nat, M: real)
    requires n > 0
    requires FV <= P * Pow(1.0, n)
    requires M == Max0((P - FV) / n as real)
    ensures Balance(P, 0.0, M, n) == FV
  {
    PowBounds(1.0, n);
    BalanceClosedForm(P, 0.0, M, n);
    GeometricSumIdentity(0.0, n);
    ZeroRateSettles(P, FV, n as real, M);
  }

  /** The annuity branch pays the amount down to exactly the balloon. */
  lemma AnnuityBalance(P: real, FV: real, i: real, n: nat)
    requires i > -1.0 && i != 0.0 && n > 0
    requires FV <= P * Pow(1.0 + i, n)
    ensures Balance(P, i, AnnuityPayment(P, FV, i, n), n) == FV
  {
    BalanceClosedForm(P, i, AnnuityPayment(P, FV, i, n), n);
    AnnuityClosedForm(P, FV, i, n);
  }

  /** The closed form of the balance after the annuity's whole term is the
      balloon. */
  lemma AnnuityClosedForm(P: real, FV: real, i: real, n: nat)
    requires i > -1.0 && i != 0.0 && n > 0
    requires FV <= P * Pow(1.0 + i, n)
    ensures P * Pow(1.0 + i, n) - AnnuityPayment(P, FV, i, n) * GeometricSum(1.0 + i, n) == FV
  {
    AnnuityPaymentUnfold(P, FV, i, n);
    GeometricSumIdentity(i, n);
    AnnuityBalanceCore(P, FV, i, Pow(1.0 + i, n), GeometricSum(1.0 + i, n),
                       AnnuityPayment(P, FV, i, n));
  }

  lemma AnnuityBalanceCore(P: real, FV: real, i: real, Q: real, G: real, M: real)
    requires Q > 0.0 && Q != 1.0 && i != 0.0
    requires G * i == Q - 1.0 && FV <= P * Q
    requires M == Annuity(P, FV, i, Q)
    ensures P * Q - M * G == FV
  {
    QuotientAtMost(FV, P, Q);
    AnnuitySettles(P, FV, i, Q, G, M);
  }

  lemma ZeroRateSettles(P: real, FV: real, n: real, M: real)
    requires n > 0.0 && FV <= P && M == Max0((P - FV) / n)
    ensures P * 1.0 - M * n == FV
  {
    NonNegativeQuotient(P - FV, n);
    assert M * n == P - FV;
  }

  lemma AnnuitySettles(P: real, FV: real, i: real, Q: real, G: real, M: real)
    requires Q > 0.0 && Q != 1.0 && i != 0.0
    requires G * i == Q - 1.0
    requires FV / Q <= P
    requires M == Annuity(P, FV, i, Q)
    ensures P * Q - M * G == FV
  {
    var L := P - FV / Q;
    AnnuityUnfold(P, FV, i, Q);
    assert Max0(P - FV / Q) == L;
    var D := 1.0 - 1.0 / Q;
    assert D * Q == Q - 1.0;
    assert D != 0.0;
    assert M * D == i * L;
    assert (M * G) * D == (L * Q) * D by {
      assert (M * G) * D == (M * D) * G;
      assert (i * L) * G == L * (G * i);
    }
    assert M * G == L * Q;
    assert (P - L) * Q == FV;
  }


}

=== FILE: rdw.dfy ===
/** The vehicle lookup by licence plate (kenteken): plate normalisation, the
    year of first registration, and the fuel label built from the RDW fuel
    records.  The two HTTP fetches are outside the model: their parsed JSON
    bodies are parameters. */
module Rdw {
  import opened Text
  import opened Js
  import opened Http

  // ---------------------------------------------------------------------
  // normalizeFuelName
  // ---------------------------------------------------------------------

  /** The eight labels the classifier can produce from a keyword. */
  const CanonicalLabels: seq<String> :=
    ["Elektrisch", "Benzine", "Diesel", "LPG", "CNG", "Waterstof", "Ethanol", "Hybride"]

  /** Some keyword of the classifier occurs in `v`. */
  predicate MatchesKeyword(v: String) {
    || Contains(v, "elektr") || Contains(v, "benz") || Contains(v, "dies")
    || Contains(v, "lpg") || Contains(v, "cng") || Contains(v, "aardgas")
    || Contains(v, "waterstof") || Contains(v, "hydrogen")
    || Contains(v, "ethanol") || Contains(v, "e85") || Contains(v, "hybride")
  }

  /** `v.charAt(0).toUpperCase() + v.slice(1)`. */
  function Capitalize(v: String): (r: String)
    ensures |r| == |v|
    ensures v != [] ==> r[0] == ToUpperChar(v[0]) && r[1..] == v[1..]
  {
    if v == [] then [] else [ToUpperChar(v[0])] + v[1..]
  }

  /** The keyword tests of `normalizeFuelName`, in their order, on the
      trimmed lower-case description. */
  function Classify(v: String): (r: String)
    ensures MatchesKeyword(v) ==> r in CanonicalLabels
    ensures !MatchesKeyword(v) ==> r == Capitalize(v)
  {
    if Contains(v, "elektr") then "Elektrisch"
    else if Contains(v, "benz") then "Benzine"
    else if Contains(v, "dies") then "Diesel"
    else if Contains(v, "lpg") then "LPG"
    else if Contains(v, "cng") || Contains(v, "aardgas") then "CNG"
    else if Contains(v, "waterstof") || Contains(v, "hydrogen") then "Waterstof"
    else if Contains(v, "ethanol") || Contains(v, "e85") then "Ethanol"
    else if Contains(v, "hybride") then "Hybride"
    else Capitalize(v)
  }

  /** The keywords `normalizeFuelName` tests, in the order it tests them,
      each with the label it returns. */
  const KeywordTable: seq<(String, String)> := [
    ("elektr", "Elektrisch"), ("benz", "Benzine"), ("dies", "Diesel"), ("lpg", "LPG"),
    ("cng", "CNG"), ("aardgas", "CNG"), ("waterstof", "Waterstof"), ("hydrogen", "Waterstof"),
    ("ethanol", "Ethanol"), ("e85", "Ethanol"), ("hybride", "Hybride")]

  /** The first keyword of the table that the text contains decides its
      label. */
  lemma ClassifyByTable(v: String, i: nat)
    requires i < |KeywordTable| && Contains(v, KeywordTable[i].0)
    requires forall j :: 0 <= j < i ==> !Contains(v, KeywordTable[j].0)
    ensures Classify(v) == KeywordTable[i].1
  {
    var t := KeywordTable;
    assert t[0].0 == "elektr" && t[1].0 == "benz" && t[2].0 == "dies" && t[3].0 == "lpg";
    assert t[4].0 == "cng" && t[5].0 == "aardgas" && t[6].0 == "waterstof" && t[7].0 == "hydrogen";
    assert t[8].0 == "ethanol" && t[9].0 == "e85" && t[10].0 == "hybride";
  }

  /** A text without any keyword of the table is only capitalised. */
  lemma ClassifyNoKeyword(v: String)
    requires forall j :: 0 <= j < |KeywordTable| ==> !Contains(v, KeywordTable[j].0)
    ensures Classify(v) == Capitalize(v)
  {
    var t := KeywordTable;
    assert !Contains(v, t[0].0) && !Contains(v, t[1].0) && !Contains(v, t[2].0) && !Contains(v, t[3].0);
    assert !Contains(v, t[4].0) && !Contains(v, t[5].0) && !Contains(v, t[6].0) && !Contains(v, t[7].0);
    assert !Contains(v, t[8].0) && !Contains(v, t[9].0) && !Contains(v, t[10].0);
  }

  /** `normalizeFuelName(s)`: trimmed and lower-cased, the first keyword that
      occurs decides the label; without a keyword the text is returned with
      its first character upper-cased. */
  function NormalizeFuelName(s: String): (r: String)
    ensures r in CanonicalLabels || r == Capitalize(Lower(Trim(s)))
  {
    Classify(Lower(Trim(s)))
  }

  /** A trimmed string whose characters lower-case to `v` is taken to `v` by
      `trim().toLowerCase()`. */
  lemma LowerTrimOf(s: String, v: String)
    requires Trimmed(s) && |v| == |s|
    requires forall i :: 0 <= i < |s| ==> v[i] == ToLowerChar(s[i])
    ensures Lower(Trim(s)) == v
  {
  }

  /** "elektr" is checked first: a description that mentions it is electric
      whatever else it mentions. */
  lemma ElectricFirst(s: String)
    requires Contains(Lower(Trim(s)), "elektr")
    ensures NormalizeFuelName(s) == "Elektrisch"
  {
  }

  lemma ElektrischFixed(c: String)
    requires c == "Elektrisch"
    ensures NormalizeFuelName(c) == c
  {
    var v := "elektrisch";
    LowerTrimOf(c, v);
    ElektrischHit(v);
    ClassifyElektrisch(v);
  }

  lemma ElektrischHit(v: String)
    requires v == "elektrisch"
    ensures Contains(v, "elektr")
  {
    assert OccursAt(v, "elektr", 0);
  }

  lemma ClassifyElektrisch(v: String)
    requires Contains(v, "elektr")
    ensures Classify(v) == "Elektrisch"
  {
  }

  lemma BenzineFixed(c: String)
    requires c == "Benzine"
    ensures NormalizeFuelName(c) == c
  {
    var v := "benzine";
    LowerTrimOf(c, v);
    BenzineMisses1(v);
    BenzineHit(v);
    ClassifyBenzine(v);
  }

  lemma BenzineMisses1(v: String)
    requires v == "benzine"
    ensures !Contains(v, "elektr")
  {
    NotContainsByChar(v, "elektr", 'k');
  }

  lemma BenzineHit(v: String)
    requires v == "benzine"
    ensures Contains(v, "benz")
  {
    assert OccursAt(v, "benz", 0);
  }

  lemma ClassifyBenzine(v: String)
    requires !Contains(v, "elektr")
    requires Contains(v, "benz")
    ensures Classify(v) == "Benzine"
  {
  }

  lemma DieselFixed(c: String)
    requires c == "Diesel"
    ensures NormalizeFuelName(c) == c
  {
    var v := "diesel";
    LowerTrimOf(c, v);
    DieselMisses1(v);
    DieselHit(v);
    ClassifyDiesel(v);
  }

  lemma DieselMisses1(v: String)
    requires v == "diesel"
    ensures !Contains(v, "elektr") && !Contains(v, "benz")
  {
    NotContainsByChar(v, "elektr", 'k');
    NotContainsByChar(v, "benz", 'b');
  }

  lemma DieselHit(v: String)
    requires v == "diesel"
    ensures Contains(v, "dies")
  {
    assert OccursAt(v, "dies", 0);
  }

  lemma ClassifyDiesel(v: String)
    requires !Contains(v, "elektr") && !Contains(v, "benz")
    requires Contains(v, "dies")
    ensures Classify(v) == "Diesel"
  {
  }

  lemma LpgFixed(c: String)
    requires c == "LPG"
    ensures NormalizeFuelName(c) == c
  {
    var v := "lpg";
    LowerTrimOf(c, v);
    LpgMisses1(v);
    LpgHit(v);
    ClassifyLpg(v);
  }

  lemma LpgMisses1(v: String)
    requires v == "lpg"
    ensures !Contains(v, "elektr") && !Contains(v, "benz") && !Contains(v, "dies")
  {
    NotContainsByChar(v, "elektr", 'e');
    NotContainsByChar(v, "benz", 'b');
    NotContainsByChar(v, "dies", 'd');
  }

  lemma LpgHit(v: String)
    requires v == "lpg"
    ensures Contains(v, "lpg")
  {
    assert OccursAt(v, "lpg", 0);
  }

  lemma ClassifyLpg(v: String)
    requires !Contains(v, "elektr") && !Contains(v, "benz") && !Contains(v, "dies")
    requires Contains(v, "lpg")
    ensures Classify(v) == "LPG"
  {
  }

  lemma CngFixed(c: String)
    requires c == "CNG"
    ensures NormalizeFuelName(c) == c
  {
    var v := "cng";
    LowerTrimOf(c, v);
    CngMisses1(v);
    CngMisses2(v);
    CngHit(v);
    ClassifyCng(v);
  }

  lemma CngMisses1(v: String)
    requires v == "cng"
    ensures !Contains(v, "elektr") && !Contains(v, "benz") && !Contains(v, "dies")
  {
    NotContainsByChar(v, "elektr", 'e');
    NotContainsByChar(v, "benz", 'b');
    NotContainsByChar(v, "dies", 'd');
  }

  lemma CngMisses2(v: String)
    requires v == "cng"
    ensures !Contains(v, "lpg")
  {
    NotContainsByChar(v, "lpg", 'l');
  }

  lemma CngHit(v: String)
    requires v == "cng"
    ensures Contains(v, "cng")
  {
    assert OccursAt(v, "cng", 0);
  }

  lemma ClassifyCng(v: String)
    requires !Contains(v, "elektr") && !Contains(v, "benz") && !Contains(v, "dies") && !Contains(v, "lpg")
    requires Contains(v, "cng") || Contains(v, "aardgas")
    ensures Classify(v) == "CNG"
  {
  }

  lemma WaterstofFixed(c: String)
    requires c == "Waterstof"
    ensures NormalizeFuelName(c) == c
  {
    var v := "waterstof";
    LowerTrimOf(c, v);
    WaterstofMisses1(v);
    WaterstofMisses2(v);
    WaterstofHit(v);
    ClassifyWaterstof(v);
  }

  lemma WaterstofMisses1(v: String)
    requires v == "waterstof"
    ensures !Contains(v, "elektr") && !Contains(v, "benz") && !Contains(v, "dies")
  {
    NotContainsByChar(v, "elektr", 'k');
    NotContainsByChar(v, "benz", 'b');
    NotContainsByChar(v, "dies", 'd');
  }

  lemma WaterstofMisses2(v: String)
    requires v == "waterstof"
    ensures !Contains(v, "lpg") && !Contains(v, "cng") && !Contains(v, "aardgas")
  {
    NotContainsByChar(v, "lpg", 'l');
    NotContainsByChar(v, "cng", 'c');
    NotContainsByChar(v, "aardgas", 'd');
  }

  lemma WaterstofHit(v: String)
    requires v == "waterstof"
    ensures Contains(v, "waterstof")
  {
    assert OccursAt(v, "waterstof", 0);
  }

  lemma ClassifyWaterstof(v: String)
    requires !Contains(v, "elektr") && !Contains(v, "benz") && !Contains(v, "dies") && !Contains(v, "lpg") && !Contains(v, "cng") && !Contains(v, "aardgas")
    requires Contains(v, "waterstof") || Contains(v, "hydrogen")
    ensures Classify(v) == "Waterstof"
  {
  }

  lemma EthanolFixed(c: String)
    requires c == "Ethanol"
    ensures NormalizeFuelName(c) == c
  {
    var v := "ethanol";
    LowerTrimOf(c, v);
    EthanolMisses1(v);
    EthanolMisses2(v);
    EthanolMisses3(v);
    EthanolHit(v);
    ClassifyEthanol(v);
  }

  lemma EthanolMisses1(v: String)
    requires v == "ethanol"
    ensures !Contains(v, "elektr") && !Contains(v, "benz") && !Contains(v, "dies")
  {
    NotContainsByChar(v, "elektr", 'k');
    NotContainsByChar(v, "benz", 'b');
    NotContainsByChar(v, "dies", 'd');
  }

  lemma EthanolMisses2(v: String)
    requires v == "ethanol"
    ensures !Contains(v, "lpg") && !Contains(v, "cng") && !Contains(v, "aardgas")
  {
    NotContainsByChar(v, "lpg", 'p');
    NotContainsByChar(v, "cng", 'c');
    NotContainsByChar(v, "aardgas", 'd');
  }

  lemma EthanolMisses3(v: String)
    requires v == "ethanol"
    ensures !Contains(v, "waterstof") && !Contains(v, "hydrogen")
  {
    NotContainsByChar(v, "waterstof", 'w');
    NotContainsByChar(v, "hydrogen", 'y');
  }

  lemma EthanolHit(v: String)
    requires v == "ethanol"
    ensures Contains(v, "ethanol")
  {
    assert OccursAt(v, "ethanol", 0);
  }

  lemma ClassifyEthanol(v: String)
    requires !Contains(v, "elektr") && !Contains(v, "benz") && !Contains(v, "dies") && !Contains(v, "lpg") && !Contains(v, "cng") && !Contains(v, "aardgas") && !Contains(v, "waterstof") && !Contains(v, "hydrogen")
    requires Contains(v, "ethanol") || Contains(v, "e85")
    ensures Classify(v) == "Ethanol"
  {
  }

  lemma HybrideFixed(c: String)
    requires c == "Hybride"
    ensures NormalizeFuelName(c) == c
  {
    var v := "hybride";
    LowerTrimOf(c, v);
    HybrideMisses1(v);
    HybrideMisses2(v);
    HybrideMisses3(v);
    HybrideMisses4(v);
    HybrideHit(v);
    ClassifyHybride(v);
  }

  lemma HybrideMisses1(v: String)
    requires v == "hybride"
    ensures !Contains(v, "elektr") && !Contains(v, "benz") && !Contains(v, "dies")
  {
    NotContainsByChar(v, "elektr", 'k');
    NotContainsByChar(v, "benz", 'n');
    NotContainsByChar(v, "dies", 's');
  }

  lemma HybrideMisses2(v: String)
    requires v == "hybride"
    ensures !Contains(v, "lpg") && !Contains(v, "cng") && !Contains(v, "aardgas")
  {
    NotContainsByChar(v, "lpg", 'l');
    NotContainsByChar(v, "cng", 'c');
    NotContainsByChar(v, "aardgas", 'a');
  }

  lemma HybrideMisses3(v: String)
    requires v == "hybride"
    ensures !Contains(v, "waterstof") && !Contains(v, "hydrogen") && !Contains(v, "ethanol")
  {
    NotContainsByChar(v, "waterstof", 'w');
    NotContainsByChar(v, "hydrogen", 'o');
    NotContainsByChar(v, "ethanol", 't');
  }

  lemma HybrideMisses4(v: String)
    requires v == "hybride"
    ensures !Contains(v, "e85")
  {
    NotContainsByChar(v, "e85", '8');
  }

  lemma HybrideHit(v: String)
    requires v == "hybride"
    ensures Contains(v, "hybride")
  {
    assert OccursAt(v, "hybride", 0);
  }

  lemma ClassifyHybride(v: String)
    requires !Contains(v, "elektr") && !Contains(v, "benz") && !Contains(v, "dies") && !Contains(v, "lpg") && !Contains(v, "cng") && !Contains(v, "aardgas") && !Contains(v, "waterstof") && !Contains(v, "hydrogen") && !Contains(v, "ethanol") && !Contains(v, "e85")
    requires Contains(v, "hybride")
    ensures Classify(v) == "Hybride"
  {
  }

  /** Each canonical label normalises to itself. */
  lemma CanonicalFixedPoints(c: String)
    requires c in CanonicalLabels
    ensures NormalizeFuelName(c) == c
  {
    var k :| 0 <= k < |CanonicalLabels| && CanonicalLabels[k] == c;
    if k == 0 { ElektrischFixed(c); }
    else if k == 1 { BenzineFixed(c); }
    else if k == 2 { DieselFixed(c); }
    else if k == 3 { LpgFixed(c); }
    else if k == 4 { CngFixed(c); }
    else if k == 5 { WaterstofFixed(c); }
    else if k == 6 { EthanolFixed(c); }
    else { HybrideFixed(c); }
  }

  /** Normalising a normalised name changes nothing. */
  lemma NormalizeIdempotent(s: String)
    ensures NormalizeFuelName(NormalizeFuelName(s)) == NormalizeFuelName(s)
  {
    var r := NormalizeFuelName(s);
    if r in CanonicalLabels {
      CanonicalFixedPoints(r);
    } else {
      var v := Lower(Trim(s));
      LowerTrimmed(Trim(s));
      LowerNoUpper(Trim(s));
      assert r == Capitalize(v);
      CapitalizedRoundTrip(v);
    }
  }

  /** Upper-casing the first character of trimmed lower-case text keeps it
      trimmed, and lower-casing undoes it. */
  lemma CapitalizedRoundTrip(v: String)
    requires Trimmed(v) && NoUpper(v)
    ensures Trimmed(Capitalize(v))
    ensures Lower(Trim(Capitalize(v))) == v
  {
    var r := Capitalize(v);
    if v != [] {
      assert r[|r| - 1] == (if |v| == 1 then ToUpperChar(v[0]) else v[|v| - 1]);
      assert Trimmed(r);
      var w := Lower(r);
      forall i | 0 <= i < |v|
        ensures w[i] == v[i]
      {
        if i == 0 {
          assert ToLowerChar(ToUpperChar(v[0])) == v[0];
        } else {
          assert r[i] == v[i];
        }
      }
    }
  }

  /** Without a keyword the label is the trimmed lower-case text with its
      first character upper-cased. */
  lemma NormalizeFallback(s: String)
    requires !MatchesKeyword(Lower(Trim(s)))
    ensures NormalizeFuelName(s) == Capitalize(Lower(Trim(s)))
    ensures |NormalizeFuelName(s)| == |Trim(s)|
    ensures forall i :: 1 <= i < |Trim(s)| ==> NormalizeFuelName(s)[i] == ToLowerChar(Trim(s)[i])
  {
  }

  // ---------------------------------------------------------------------
  // deriveFuelLabel
  // ---------------------------------------------------------------------

  predicate NoDup(s: seq<String>) {
    forall i, j :: 0 <= i < j < |s| ==> s[i] != s[j]
  }

  /** `[...new Set(xs)]`: the distinct elements in the order they are first
      seen. */
  function Dedup(xs: seq<String>): (r: seq<String>)
    ensures NoDup(r)
    ensures forall x :: x in r <==> x in xs
    ensures |r| <= |xs|
  {
    if xs == [] then []
    else
      var d := Dedup(xs[..|xs| - 1]);
      var x := xs[|xs| - 1];
      assert xs == xs[..|xs| - 1] + [x];
      if x in d then d else d + [x]
  }

  /** Reference definition: the elements of `xs` that do not occur earlier
      in `xs`. */
  function FirstOccurrences(xs: seq<String>): (r: seq<String>)
    ensures xs != [] ==> r != []
  {
    if xs == [] then []
    else
      var p := xs[..|xs| - 1];
      FirstOccurrences(p) + (if xs[|xs| - 1] in p then [] else [xs[|xs| - 1]])
  }

  /** The set keeps exactly the first occurrence of each element, in order. */
  lemma {:induction false} DedupIsFirstOccurrences(xs: seq<String>)
    ensures Dedup(xs) == FirstOccurrences(xs)
  {
    if xs != [] {
      DedupIsFirstOccurrences(xs[..|xs| - 1]);
    }
  }

  /** A list without repeats passes through unchanged. */
  lemma {:induction false} DedupDistinct(xs: seq<String>)
    requires NoDup(xs)
    ensures Dedup(xs) == xs
  {
    if xs != [] {
      var p := xs[..|xs| - 1];
      assert NoDup(p);
      DedupDistinct(p);
      assert xs[|xs| - 1] !in p by {
        forall i | 0 <= i < |p|
          ensures p[i] != xs[|xs| - 1]
        {
          assert p[i] == xs[i];
        }
      }
      assert p + [xs[|xs| - 1]] == xs;
    }
  }

  /** An element already seen may appear again anywhere later without
      changing the result. */
  lemma {:induction false} DedupRepeat(a: seq<String>, x: String, b: seq<String>)
    requires x in a
    ensures Dedup(a + [x] + b) == Dedup(a + b)
  {
    if b == [] {
      assert (a + [x] + b)[..|a + [x] + b| - 1] == a;
      assert a + b == a;
    } else {
      var b' := b[..|b| - 1];
      var y := b[|b| - 1];
      DedupRepeat(a, x, b');
      assert (a + [x] + b)[..|a + [x] + b| - 1] == a + [x] + b';
      assert (a + b)[..|a + b| - 1] == a + b';
      assert (a + [x] + b)[|a + [x] + b| - 1] == y;
      assert (a + b)[|a + b| - 1] == y;
    }
  }

  /** Keeps the elements different from `v`: `filter((x) => x !== v)`. */
  function Without(s: seq<String>, v: String): (r: seq<String>)
    ensures v !in r
    ensures forall x :: x in r <==> x in s && x != v
  {
    if s == [] then []
    else if s[0] == v then Without(s[1..], v)
    else [s[0]] + Without(s[1..], v)
  }

  /** `Hybride (c/Elektrisch)`. */
  function HybridOf(c: String): String {
    "Hybride (" + c + "/Elektrisch)"
  }

  /** The label for the distinct normalised names, in the branch order of
      `deriveFuelLabel`.  With "Hybride" present the first other non-electric
      name is found with `find`, whose empty-string result counts as absent;
      without it the first non-electric name is taken by index. */
  function ComposeLabel(norm: seq<String>): (r: String)
    requires norm != []
  {
    if "Hybride" in norm then
      var comb := Without(norm, "Hybride");
      var others := Without(comb, "Elektrisch");
      if "Elektrisch" in comb && others != [] && others[0] != "" then HybridOf(others[0])
      else "Hybride"
    else
      var combustion := Without(norm, "Elektrisch");
      if "Elektrisch" in norm && |combustion| > 0 then HybridOf(combustion[0])
      else if |norm| > 1 then Join(norm, " + ")
      else norm[0]
  }

  /** `Without` keeps order: its first element is the first element of the
      input that differs from the removed values. */
  lemma {:induction false} WithoutFirst(s: seq<String>, v: String, j: nat)
    requires j < |s| && s[j] != v
    requires forall k :: 0 <= k < j ==> s[k] == v
    ensures Without(s, v) != [] && Without(s, v)[0] == s[j]
  {
    if j > 0 {
      WithoutFirst(s[1..], v, j - 1);
    }
  }

  /** The index of the first name that is neither `a` nor `b`. */
  predicate FirstOther(norm: seq<String>, j: nat, a: String, b: String) {
    && j < |norm| && norm[j] != a && norm[j] != b
    && forall k :: 0 <= k < j ==> norm[k] == a || norm[k] == b
  }

  lemma {:induction false} WithoutTwiceFirst(s: seq<String>, a: String, b: String, j: nat)
    requires FirstOther(s, j, a, b)
    ensures Without(Without(s, a), b) != [] && Without(Without(s, a), b)[0] == s[j]
  {
    if j == 0 {
      assert s[0] != a && s[0] != b;
    } else if s[0] == a {
      WithoutTwiceFirst(s[1..], a, b, j - 1);
    } else {
      assert s[0] == b;
      WithoutTwiceFirst(s[1..], a, b, j - 1);
    }
  }

  lemma {:induction false} WithoutTwiceEmpty(s: seq<String>, a: String, b: String)
    requires forall k :: 0 <= k < |s| ==> s[k] == a || s[k] == b
    ensures Without(Without(s, a), b) == []
  {
    if s != [] {
      WithoutTwiceEmpty(s[1..], a, b);
    }
  }

  /** Hybrid with an electric and another non-empty fuel: the other fuel is
      the first name, in first-seen order, that is neither of the two. */
  lemma HybridWithCombustion(norm: seq<String>, j: nat)
    requires "Hybride" in norm && "Elektrisch" in norm
    requires FirstOther(norm, j, "Hybride", "Elektrisch") && norm[j] != ""
    ensures ComposeLabel(norm) == HybridOf(norm[j])
  {
    WithoutTwiceFirst(norm, "Hybride", "Elektrisch", j);
  }

  /** Hybrid without an electric name, or without another fuel name (or whose
      first other name is empty), is plain "Hybride". */
  lemma HybridAlone(norm: seq<String>)
    requires "Hybride" in norm
    requires || "Elektrisch" !in norm
             || (forall k :: 0 <= k < |norm| ==> norm[k] == "Hybride" || norm[k] == "Elektrisch")
             || (exists j: nat :: FirstOther(norm, j, "Hybride", "Elektrisch") && norm[j] == "")
    ensures ComposeLabel(norm) == "Hybride"
  {
    if "Elektrisch" in norm {
      if forall k :: 0 <= k < |norm| ==> norm[k] == "Hybride" || norm[k] == "Elektrisch" {
        WithoutTwiceEmpty(norm, "Hybride", "Elektrisch");
      } else {
        var j: nat :| FirstOther(norm, j, "Hybride", "Elektrisch") && norm[j] == "";
        WithoutTwiceFirst(norm, "Hybride", "Elektrisch", j);
      }
    }
  }

  /** Without "Hybride", electric plus another fuel is reported as a hybrid
      of the first non-electric name. */
  lemma ElectricCombination(norm: seq<String>, j: nat)
    requires "Hybride" !in norm && "Elektrisch" in norm
    requires j < |norm| && norm[j] != "Elektrisch"
    requires forall k :: 0 <= k < j ==> norm[k] == "Elektrisch"
    ensures ComposeLabel(norm) == HybridOf(norm[j])
  {
    WithoutFirst(norm, "Elektrisch", j);
  }

  /** Neither "Hybride" nor "Elektrisch": several names are joined with
      " + ". */
  lemma JoinedLabels(norm: seq<String>)
    requires "Hybride" !in norm && "Elektrisch" !in norm && |norm| > 1
    ensures ComposeLabel(norm) == Join(norm, " + ")
  {
  }

  /** A single name is the label as it is. */
  lemma SingleLabel(x: String)
    ensures ComposeLabel([x]) == x
  {
    if x == "Hybride" {
      assert Without([x], "Hybride") == [];
    } else if x == "Elektrisch" {
      assert Without([x], "Elektrisch") == [];
    }
  }

  /** With "Elektrisch" among several distinct names the label is always a
      hybrid one, so a " + " join never lists "Elektrisch". */
  lemma ElectricNeverJoined(norm: seq<String>)
    requires NoDup(norm) && |norm| > 1 && "Elektrisch" in norm
    ensures |ComposeLabel(norm)| >= 7 && ComposeLabel(norm)[..7] == "Hybride"
  {
    if "Hybride" !in norm {
      var e :| 0 <= e < |norm| && norm[e] == "Elektrisch";
      var o := if e == 0 then 1 else 0;
      assert norm[o] != "Elektrisch";
      assert norm[o] in Without(norm, "Elektrisch");
    }
  }

  /** `f?.brandstof_omschrijving || f?.brandstof || ""` for one fuel record. */
  function FuelValue(f: Value): (r: Value)
    ensures Truthy(Prop(f, "brandstof_omschrijving")) ==> r == Prop(f, "brandstof_omschrijving")
    ensures !Truthy(Prop(f, "brandstof_omschrijving")) && Truthy(Prop(f, "brandstof"))
            ==> r == Prop(f, "brandstof")
    ensures !Truthy(Prop(f, "brandstof_omschrijving")) && !Truthy(Prop(f, "brandstof"))
            ==> r == Str("")
    ensures !Truthy(r) ==> r == Str("")
  {
    Or(Or(Prop(f, "brandstof_omschrijving"), Prop(f, "brandstof")), Str(""))
  }

  /** `x` is the fuel value of one of the records. */
  predicate FuelOf(x: Value, records: seq<Value>) {
    exists j | 0 <= j < |records| :: x == FuelValue(records[j])
  }

  lemma FuelOfCons(records: seq<Value>)
    requires records != []
    ensures forall x :: FuelOf(x, records) <==> x == FuelValue(records[0]) || FuelOf(x, records[1..])
  {
    forall x | FuelOf(x, records)
      ensures x == FuelValue(records[0]) || FuelOf(x, records[1..])
    {
      var j :| 0 <= j < |records| && x == FuelValue(records[j]);
      if j > 0 {
        assert records[1..][j - 1] == records[j];
      }
    }
    forall x | FuelOf(x, records[1..])
      ensures FuelOf(x, records)
    {
      var j :| 0 <= j < |records[1..]| && x == FuelValue(records[1..][j]);
      assert records[j + 1] == records[1..][j];
    }
  }

  /** The fuel values of the records, keeping the truthy ones in order:
      `.map(...).filter(Boolean)`.  A value is kept iff it is truthy and the
      fuel value of some record (`RawFuelsMembers`); one record contributes
      its value when that is truthy, and `RawFuelsAppend` gives the order. */
  function RawFuels(records: seq<Value>): (r: seq<Value>)
    ensures |r| <= |records|
    ensures forall k :: 0 <= k < |r| ==> Truthy(r[k])
    ensures |records| == 1 ==> r == (if Truthy(FuelValue(records[0])) then [FuelValue(records[0])] else [])
  {
    if records == [] then []
    else
      var v := FuelValue(records[0]);
      (if Truthy(v) then [v] else []) + RawFuels(records[1..])
  }

  /** A value is a raw fuel value iff it is truthy and the fuel value of one
      of the records. */
  lemma {:induction false} RawFuelsMembers(records: seq<Value>)
    ensures forall x :: x in RawFuels(records) <==> Truthy(x) && FuelOf(x, records)
  {
    if records != [] {
      RawFuelsMembers(records[1..]);
      FuelOfCons(records);
    }
  }

  lemma {:induction false} RawFuelsAppend(a: seq<Value>, b: seq<Value>)
    ensures RawFuels(a + b) == RawFuels(a) + RawFuels(b)
  {
    if a != [] {
      assert (a + b)[0] == a[0];
      assert (a + b)[1..] == a[1..] + b;
      RawFuelsAppend(a[1..], b);
    } else {
      assert a + b == b;
    }
  }

  /** `raw.map(normalizeFuelName)`, with `String(s)` applied to each value. */
  function FuelNames(raw: seq<Value>): (r: seq<String>)
    ensures |r| == |raw|
    ensures forall k :: 0 <= k < |raw| ==> r[k] == NormalizeFuelName(ToJsString(raw[k]))
  {
    if raw == [] then [] else [NormalizeFuelName(ToJsString(raw[0]))] + FuelNames(raw[1..])
  }

  /** `deriveFuelLabel(fuels)`: "" when no record has a truthy fuel value;
      otherwise the label composed from the distinct normalised names.  A
      value that is not an array counts as no records. */
  function DeriveFuelLabel(fuels: Value): (r: String)
    ensures !fuels.Arr? ==> r == ""
  {
    var raw := if fuels.Arr? then RawFuels(fuels.items) else [];
    if raw == [] then ""
    else ComposeLabel(Dedup(FuelNames(raw)))
  }

  /** No record with a description or fuel gives the empty label. */
  lemma NoFuelNoLabel(records: seq<Value>)
    requires forall k :: 0 <= k < |records| ==>
               !Truthy(Prop(records[k], "brandstof_omschrijving")) && !Truthy(Prop(records[k], "brandstof"))
    ensures DeriveFuelLabel(Arr(records)) == ""
  {
    assert forall k :: 0 <= k < |records| ==> !Truthy(FuelValue(records[k]));
    NoTruthyFuel(records);
  }

  lemma {:induction false} NoTruthyFuel(records: seq<Value>)
    requires forall k :: 0 <= k < |records| ==> !Truthy(FuelValue(records[k]))
    ensures RawFuels(records) == []
  {
    if records != [] {
      assert !Truthy(FuelValue(records[0]));
      NoTruthyFuel(records[1..]);
    }
  }

  /** The label is the one composed from the first-seen order of the
      normalised names of the truthy fuel values. */
  lemma DeriveFuelLabelComposes(records: seq<Value>)
    requires RawFuels(records) != []
    ensures DeriveFuelLabel(Arr(records))
            == ComposeLabel(FirstOccurrences(FuelNames(RawFuels(records))))
  {
    var names := FuelNames(RawFuels(records));
    DedupIsFirstOccurrences(names);
    assert Dedup(names) != [];
    assert DeriveFuelLabel(Arr(records)) == ComposeLabel(Dedup(names));
  }

  /** Repeating a record that already occurs earlier does not change the
      label. */
  lemma RepeatedRecord(a: seq<Value>, f: Value, b: seq<Value>)
    requires f in a
    ensures DeriveFuelLabel(Arr(a + [f] + b)) == DeriveFuelLabel(Arr(a + b))
  {
    RawFuelsAppend(a + [f], b);
    RawFuelsAppend(a, [f]);
    RawFuelsAppend(a, b);
    var ra := RawFuels(a);
    var rb := RawFuels(b);
    var v := FuelValue(f);
    if Truthy(v) {
      FuelOfMember(a, f);
      RepeatedRaw(ra, v, rb);
      assert RawFuels(a + [f] + b) == ra + [v] + rb;
    } else {
      assert RawFuels(a + [f] + b) == ra + rb;
    }
  }

  /** Repeating a raw value that already occurs leaves the distinct names
      unchanged. */
  lemma RepeatedRaw(ra: seq<Value>, v: Value, rb: seq<Value>)
    requires v in ra
    ensures Dedup(FuelNames(ra + [v] + rb)) == Dedup(FuelNames(ra + rb))
  {
    var na := FuelNames(ra);
    var nb := FuelNames(rb);
    var n := NormalizeFuelName(ToJsString(v));
    FuelNamesAppend(ra + [v], rb);
    FuelNamesAppend(ra, [v]);
    FuelNamesAppend(ra, rb);
    assert FuelNames([v]) == [n];
    var k :| 0 <= k < |ra| && ra[k] == v;
    assert na[k] == n;
    DedupRepeat(na, n, nb);
  }

  /** The truthy fuel value of a record of `a` is among `a`'s raw values. */
  lemma FuelOfMember(a: seq<Value>, f: Value)
    requires f in a && Truthy(FuelValue(f))
    ensures FuelValue(f) in RawFuels(a)
  {
    var j :| 0 <= j < |a| && a[j] == f;
    assert FuelOf(FuelValue(f), a);
    RawFuelsMembers(a);
  }

  lemma FuelNamesAppend(a: seq<Value>, b: seq<Value>)
    ensures FuelNames(a + b) == FuelNames(a) + FuelNames(b)
  {
    var l := FuelNames(a + b);
    var r := FuelNames(a) + FuelNames(b);
    forall k | 0 <= k < |l|
      ensures l[k] == r[k]
    {
      if k < |a| {
        assert (a + b)[k] == a[k];
      } else {
        assert (a + b)[k] == b[k - |a|];
      }
    }
  }


  // ---------------------------------------------------------------------
  // GET /api/rdw
  // ---------------------------------------------------------------------

  /** A character `[A-Z0-9]` keeps. */
  predicate IsPlateChar(c: char) {
    IsUpper(c) || IsDigit(c)
  }

  /** An ASCII letter or digit of either case. */
  predicate IsAlnum(c: char) {
    IsUpper(c) || IsLower(c) || IsDigit(c)
  }

  /** `(kenteken || "").toUpperCase().replace(/[^A-Z0-9]/g, "")`.  An
      absent query parameter is `None`. */
  function NormalizeKenteken(param: Option<String>): (r: String)
    ensures forall k :: 0 <= k < |r| ==> IsPlateChar(r[k])
  {
    var s := if param.Some? then param.value else "";
    FilterChars(Upper(s), IsPlateChar)
  }

  /** Normalising a normalised plate changes nothing. */
  lemma NormalizeKentekenIdempotent(param: Option<String>)
    ensures NormalizeKenteken(Some(NormalizeKenteken(param))) == NormalizeKenteken(param)
  {
    var r := NormalizeKenteken(param);
    UpperOfPlate(r);
  }

  lemma UpperOfPlate(r: String)
    requires forall k :: 0 <= k < |r| ==> IsPlateChar(r[k])
    ensures Upper(r) == r
  {
  }

  /** Reference definition: keeping the ASCII letters and digits and then
      upper-casing gives the same plate. */
  lemma {:induction false} KentekenByAlnum(s: String)
    ensures NormalizeKenteken(Some(s)) == Upper(FilterChars(s, IsAlnum))
  {
    if s != [] {
      KentekenByAlnum(s[1..]);
      assert Upper(s)[1..] == Upper(s[1..]);
      assert IsPlateChar(ToUpperChar(s[0])) <==> IsAlnum(s[0]);
      if IsAlnum(s[0]) {
        assert Upper([s[0]] + FilterChars(s[1..], IsAlnum))
            == [ToUpperChar(s[0])] + Upper(FilterChars(s[1..], IsAlnum));
      }
    }
  }

  /** `/^\d{8}$/`: exactly eight decimal digits. */
  predicate EightDigits(t: String) {
    |t| == 8 && AllDigits(t)
  }

  /** The `bouwjaar` of a vehicle: the first four characters of its first
      registration date when that is eight digits, otherwise "".  The date is
      `datum_eerste_toelating || datum_eerste_toelating_dt`; the pattern is
      checked on `String(det)` and then `det.slice(0, 4)` is taken, which a
      number does not have (`None`, the handler's error path) and which on an
      array gives its first four elements. */
  function Bouwjaar(v: Value): (r: Option<Value>)
    ensures var det := Or(Prop(v, "datum_eerste_toelating"), Prop(v, "datum_eerste_toelating_dt"));
            && (!Truthy(det) ==> r == Some(Str("")))
            && (det.Str? ==> r == Some(Str(if EightDigits(det.s) then det.s[..4] else "")))
            && (r.None? <==> det.Num? && EightDigits(ToJsString(det)))
            && ((det.Arr? && EightDigits(ToJsString(det)))
                ==> r == Some(Arr(det.items[..if |det.items| < 4 then |det.items| else 4])))
            && (!EightDigits(ToJsString(det)) ==> r == Some(Str("")))
  {
    var det := Or(Prop(v, "datum_eerste_toelating"), Prop(v, "datum_eerste_toelating_dt"));
    if !Truthy(det) || !EightDigits(ToJsString(det)) then Some(Str(""))
    else match det
      case Str(t) => Some(Str(t[..4]))
      case Arr(items) => Some(Arr(items[..if |items| < 4 then |items| else 4]))
      case _ => None
  }

  /** A registration date `YYYYMMDD` gives the year whose value is the
      date's value with the month and day dropped, from whichever of the two
      date fields is set. */
  lemma BouwjaarYear(v: Value, d: String)
    requires Prop(v, "datum_eerste_toelating") == Str(d)
             || (!Truthy(Prop(v, "datum_eerste_toelating"))
                 && Prop(v, "datum_eerste_toelating_dt") == Str(d))
    requires EightDigits(d)
    ensures Bouwjaar(v) == Some(Str(d[..4]))
    ensures AllDigits(d[..4]) && DecimalValue(d[..4]) == DecimalValue(d) / 10000
  {
    DecimalSplit(d, 4);
    assert Pow10(4) == 10000;
  }

  /** What a successful lookup returns. */
  datatype VehicleInfo = VehicleInfo(kenteken: String, merk: Value, model: Value,
                                     brandstof: String, bouwjaar: Value)

  /** The handler of `GET /api/rdw?kenteken=…`, given the parsed bodies of the
      vehicle and fuel queries. */
  function RdwLookup(param: Option<String>, vehJson: Value, fuelJson: Value): (r: Response<VehicleInfo>)
    ensures NormalizeKenteken(param) == [] <==> r == Fail(BadRequest, "kenteken required")
    ensures r == Fail(NotFound, "not_found")
            <==> NormalizeKenteken(param) != []
                 && !(vehJson.Arr? && vehJson.items != [] && Truthy(vehJson.items[0]))
    ensures r == Fail(InternalError, "rdw_error")
            <==> NormalizeKenteken(param) != [] && vehJson.Arr? && vehJson.items != []
                 && Truthy(vehJson.items[0]) && Bouwjaar(vehJson.items[0]).None?
    ensures r.Reply? <==> NormalizeKenteken(param) != [] && vehJson.Arr? && vehJson.items != []
                          && Truthy(vehJson.items[0]) && Bouwjaar(vehJson.items[0]).Some?
    ensures r.Reply? ==> r.status == Ok && r.body.kenteken == NormalizeKenteken(param)
                         && r.body.kenteken != []
                         && r.body.brandstof == DeriveFuelLabel(fuelJson)
                         && r.body.bouwjaar == Bouwjaar(vehJson.items[0]).value
                         && r.body.merk == Or(Prop(vehJson.items[0], "merk"), Str(""))
                         && r.body.model == Or(Prop(vehJson.items[0], "handelsbenaming"), Str(""))
  {
    var kenteken := NormalizeKenteken(param);
    if kenteken == [] then Fail(BadRequest, "kenteken required")
    else if !(vehJson.Arr? && vehJson.items != [] && Truthy(vehJson.items[0])) then
      Fail(NotFound, "not_found")
    else
      var v := vehJson.items[0];
      match Bouwjaar(v)
      case None => Fail(InternalError, "rdw_error")
      case Some(bouwjaar) =>
        Reply(Ok, VehicleInfo(kenteken, Or(Prop(v, "merk"), Str("")),
                              Or(Prop(v, "handelsbenaming"), Str("")),
                              DeriveFuelLabel(fuelJson), bouwjaar))
  }

  /** A vehicle record with a make, a trade name and a registration date
      `YYYYMMDD` is answered with exactly those, the normalised plate, the
      year of the date and the fuel label of the fuel records. */
  lemma LookupOfRecord(param: Option<String>, v: Value, rest: seq<Value>, fuelJson: Value,
                       merk: String, model: String, d: String)
    requires NormalizeKenteken(param) != []
    requires Truthy(v)
    requires Prop(v, "merk") == Str(merk) && Prop(v, "handelsbenaming") == Str(model)
    requires Prop(v, "datum_eerste_toelating") == Str(d) && EightDigits(d)
    ensures RdwLookup(param, Arr([v] + rest), fuelJson)
            == Reply(Ok, VehicleInfo(NormalizeKenteken(param),
                                     if merk == [] then Str("") else Str(merk),
                                     if model == [] then Str("") else Str(model),
                                     DeriveFuelLabel(fuelJson), Str(d[..4])))
  {
    BouwjaarYear(v, d);
  }

  /** Only the first vehicle record is read, and an empty result is "not
      found". */
  lemma LookupFirstRecord(param: Option<String>, v: Value, rest: seq<Value>, fuelJson: Value)
    ensures RdwLookup(param, Arr([v] + rest), fuelJson) == RdwLookup(param, Arr([v]), fuelJson)
    ensures NormalizeKenteken(param) != []
            ==> RdwLookup(param, Arr([]), fuelJson) == Fail(NotFound, "not_found")
  {
  }
}

=== FILE: text.dfy ===
/** String operations of JavaScript that the route handlers rely on, over
    `seq<char>`.  Case mapping is restricted to ASCII letters. */
module Text {

  type String = seq<char>

  /** The characters that `String.prototype.trim` strips and that the regular
      expression class `\s` matches. */
  predicate IsSpace(c: char) {
    || c == ' ' || c == '\t' || c == '\n' || c == '\r'
    || c == '\U{000B}' || c == '\U{000C}' || c == '\U{00A0}' || c == '\U{1680}'
    || ('\U{2000}' <= c <= '\U{200A}')
    || c == '\U{2028}' || c == '\U{2029}' || c == '\U{202F}' || c == '\U{205F}'
    || c == '\U{3000}' || c == '\U{FEFF}'
  }

  /** The regular expression class `\d`. */
  predicate IsDigit(c: char) {
    '0' <= c <= '9'
  }

  predicate IsUpper(c: char) {
    'A' <= c <= 'Z'
  }

  predicate IsLower(c: char) {
    'a' <= c <= 'z'
  }

  function ToUpperChar(c: char): (r: char)
    ensures IsLower(c) ==> IsUpper(r)
    ensures !IsLower(c) ==> r == c
    ensures !IsLower(r)
  {
    if IsLower(c) then (c as int - 32) as char else c
  }

  function ToLowerChar(c: char): (r: char)
    ensures IsUpper(c) ==> IsLower(r)
    ensures !IsUpper(c) ==> r == c
    ensures !IsUpper(r)
  {
    if IsUpper(c) then (c as int + 32) as char else c
  }

  /** `toUpperCase`, ASCII letters only. */
  function Upper(s: String): (r: String)
    ensures |r| == |s|
    ensures forall i :: 0 <= i < |s| ==> r[i] == ToUpperChar(s[i])
  {
    if s == [] then [] else [ToUpperChar(s[0])] + Upper(s[1..])
  }

  /** `toLowerCase`, ASCII letters only. */
  function Lower(s: String): (r: String)
    ensures |r| == |s|
    ensures forall i :: 0 <= i < |s| ==> r[i] == ToLowerChar(s[i])
  {
    if s == [] then [] else [ToLowerChar(s[0])] + Lower(s[1..])
  }

  /** A string that `toLowerCase` leaves alone. */
  predicate NoUpper(s: String) {
    forall i :: 0 <= i < |s| ==> !IsUpper(s[i])
  }

  lemma LowerNoUpper(s: String)
    ensures NoUpper(Lower(s))
    ensures NoUpper(s) ==> Lower(s) == s
  {
  }

  /** No white space at either end: what `trim` produces. */
  predicate Trimmed(s: String) {
    s == [] || (!IsSpace(s[0]) && !IsSpace(s[|s| - 1]))
  }

  function TrimStart(s: String): (r: String)
    ensures r == [] || !IsSpace(r[0])
    ensures |r| <= |s| && r == s[|s| - |r|..]
    ensures forall i :: 0 <= i < |s| - |r| ==> IsSpace(s[i])
  {
    if s != [] && IsSpace(s[0]) then TrimStart(s[1..]) else s
  }

  function TrimEnd(s: String): (r: String)
    ensures r == [] || !IsSpace(r[|r| - 1])
    ensures |r| <= |s| && r == s[..|r|]
    ensures forall i :: |r| <= i < |s| ==> IsSpace(s[i])
  {
    if s != [] && IsSpace(s[|s| - 1]) then TrimEnd(s[..|s| - 1]) else s
  }

  /** `String.prototype.trim`: the input with white space removed at both ends. */
  function Trim(s: String): (r: String)
    ensures Trimmed(r)
    ensures Trimmed(s) ==> r == s
  {
    var t := TrimStart(s);
    var r := TrimEnd(t);
    TrimmedEnds(t, r);
    TrimmedUnchanged(s, t, r);
    r
  }

  /** `trim` removes one leading white-space character from a trimmed
      text and nothing else. */
  lemma TrimLeadingSpace(c: char, t: String)
    requires IsSpace(c) && Trimmed(t)
    ensures Trim([c] + t) == t
  {
    var s := [c] + t;
    assert s[1..] == t;
    assert TrimStart(t) == t;
    assert TrimStart(s) == t;
    assert TrimEnd(t) == t;
  }

  /** A prefix of a string that starts with a non-space, ending in a
      non-space, is trimmed. */
  lemma TrimmedEnds(t: String, r: String)
    requires t == [] || !IsSpace(t[0])
    requires |r| <= |t| && r == t[..|r|]
    requires r == [] || !IsSpace(r[|r| - 1])
    ensures Trimmed(r)
  {
    if r != [] {
      assert r[0] == t[0];
    }
  }

  /** Stripping only white space from both ends of a trimmed string
      strips nothing. */
  lemma TrimmedUnchanged(s: String, t: String, r: String)
    requires |t| <= |s| && t == s[|s| - |t|..]
    requires |t| < |s| ==> IsSpace(s[0])
    requires |r| <= |t| && r == t[..|r|]
    requires |r| < |t| ==> IsSpace(t[|t| - 1])
    ensures Trimmed(s) ==> r == s
  {
    if Trimmed(s) && s != [] {
      assert t == s;
    }
  }

  /** Lower-casing a trimmed string leaves it trimmed, because case mapping
      never turns a letter into white space. */
  lemma LowerTrimmed(s: String)
    requires Trimmed(s)
    ensures Trimmed(Lower(s))
  {
  }

  /** `s.includes(t)`: `t` occurs in `s` at some position. */
  predicate Contains(s: String, t: String) {
    exists i: nat | i <= |s| :: OccursAt(s, t, i)
  }

  /** `t` occurs in `s` starting at index `i`. */
  predicate OccursAt(s: String, t: String, i: nat) {
    i + |t| <= |s| && s[i..i + |t|] == t
  }

  /** A string that lacks one of the characters of `t` cannot contain `t`. */
  lemma NotContainsByChar(s: String, t: String, c: char)
    requires c in t && c !in s
    ensures !Contains(s, t)
  {
    var k :| 0 <= k < |t| && t[k] == c;
    forall i: nat | i + |t| <= |s|
      ensures !OccursAt(s, t, i)
    {
      assert s[i..i + |t|][k] == s[i + k] != c;
    }
  }

  predicate AllDigits(s: String) {
    forall i :: 0 <= i < |s| ==> IsDigit(s[i])
  }

  function DigitValue(c: char): (r: nat)
    requires IsDigit(c)
    ensures r < 10
  {
    c as int - '0' as int
  }

  function DigitChar(d: nat): (r: char)
    requires d < 10
    ensures IsDigit(r) && DigitValue(r) == d
  {
    ('0' as int + d) as char
  }

  /** The value of a decimal numeral, as `parseInt(s, 10)` reads an all-digit string. */
  function DecimalValue(s: String): nat
    requires AllDigits(s)
  {
    if s == [] then 0 else DecimalValue(s[..|s| - 1]) * 10 + DigitValue(s[|s| - 1])
  }

  function Pow10(k: nat): (r: nat)
    ensures r >= 1
  {
    if k == 0 then 1 else 10 * Pow10(k - 1)
  }

  /** Splitting a numeral after its first `k` digits splits its value: the
      leading digits count `10^(|s| - k)` times, and the trailing ones stay
      below that power. */
  lemma {:induction false} DecimalSplit(s: String, k: nat)
    requires AllDigits(s) && k <= |s|
    ensures AllDigits(s[..k]) && AllDigits(s[k..])
    ensures DecimalValue(s) == DecimalValue(s[..k]) * Pow10(|s| - k) + DecimalValue(s[k..])
    ensures DecimalValue(s[k..]) < Pow10(|s| - k)
  {
    if |s| == k {
      assert s[..k] == s && s[k..] == [];
    } else {
      var t := s[..|s| - 1];
      var d := DigitValue(s[|s| - 1]);
      DecimalSplit(t, k);
      assert t[..k] == s[..k];
      assert s[k..][..|s[k..]| - 1] == t[k..];
      assert s[k..][|s[k..]| - 1] == s[|s| - 1];
      assert DecimalValue(s) == DecimalValue(t) * 10 + d;
      assert DecimalValue(s[k..]) == DecimalValue(t[k..]) * 10 + d;
      ShiftDigit(DecimalValue(s[..k]), DecimalValue(t[k..]), Pow10(|t| - k), d);
    }
  }

  /** Appending digit `d` to a numeral of value `hi * p + lo` with `lo < p`. */
  lemma ShiftDigit(hi: nat, lo: nat, p: nat, d: nat)
    requires lo < p && d < 10
    ensures (hi * p + lo) * 10 + d == hi * (10 * p) + (lo * 10 + d)
    ensures lo * 10 + d < 10 * p
  {
  }

  /** The decimal numeral of a natural number, as `String(n)` writes it. */
  function NatToDecimal(n: nat): (r: String)
    ensures |r| > 0 && AllDigits(r)
    ensures DecimalValue(r) == n
  {
    if n < 10 then [DigitChar(n)]
    else
      var r := NatToDecimal(n / 10) + [DigitChar(n % 10)];
      assert r[..|r| - 1] == NatToDecimal(n / 10);
      r
  }

  /** `Array.prototype.join`. */
  function Join(parts: seq<String>, sep: String): String {
    if parts == [] then []
    else if |parts| == 1 then parts[0]
    else parts[0] + sep + Join(parts[1..], sep)
  }

  /** Keeps the characters that satisfy `keep`, in order: a global
      `replace` of a negated character class by the empty string. */
  function FilterChars(s: String, keep: char -> bool): (r: String)
    ensures |r| <= |s|
    ensures forall i :: 0 <= i < |r| ==> keep(r[i])
    ensures forall c :: c in r ==> c in s
    ensures (forall i :: 0 <= i < |s| ==> keep(s[i])) ==> r == s
  {
    if s == [] then []
    else if keep(s[0]) then [s[0]] + FilterChars(s[1..], keep)
    else FilterChars(s[1..], keep)
  }

  lemma {:induction false} FilterCharsAppend(a: String, b: String, keep: char -> bool)
    ensures FilterChars(a + b, keep) == FilterChars(a, keep) + FilterChars(b, keep)
  {
    if a != [] {
      assert (a + b)[0] == a[0];
      assert (a + b)[1..] == a[1..] + b;
      FilterCharsAppend(a[1..], b, keep);
    } else {
      assert a + b == b;
    }
  }
}

=== FILE: users.dfy ===
/** User administration (`GET` and `POST` of /api/users): admin only; new
    users are validated in a fixed order.  Password hashing and the store
    are outside the model: the existing e-mail addresses are a parameter. */
module Users {
  import opened Text
  import opened Js
  import opened Http
  import opened Ordering

  // ---------------------------------------------------------------------
  // isEmail
  // ---------------------------------------------------------------------

  /** Every character is in the class `[^\s@]`. */
  predicate Plain(s: String) {
    forall k :: 0 <= k < |s| ==> !IsSpace(s[k]) && s[k] != '@'
  }

  /** `v` splits as `[^\s@]+ @ [^\s@]+ \. [^\s@]+` with the '@' at `i` and
      the '.' at `j`. */
  predicate SplitsAt(v: String, i: nat, j: nat) {
    && 0 < i && i + 1 < j && j + 1 < |v|
    && v[i] == '@' && v[j] == '.'
    && Plain(v[..i]) && Plain(v[i + 1..j]) && Plain(v[j + 1..])
  }

  /** `/^[^\s@]+@[^\s@]+\.[^\s@]+$/.test(v)`: some split matches the
      pattern. */
  predicate IsEmail(v: String) {
    exists i: nat, j: nat | i < j < |v| :: SplitsAt(v, i, j)
  }

  /** The '@' at `i` is the only one. */
  predicate OnlyAtSignAt(v: String, i: nat) {
    i < |v| && v[i] == '@' && forall k :: 0 <= k < |v| && v[k] == '@' ==> k == i
  }

  /** A '.' strictly inside the part after the '@' at `i`. */
  predicate DotAfter(v: String, i: nat) {
    exists j: nat | j < |v| :: i + 1 < j && j + 1 < |v| && v[j] == '.'
  }

  /** The four conditions stated on the whole address: no white space, exactly
      one '@', something before it, and a '.' after it with a character on
      each side. */
  predicate EmailConditions(v: String) {
    && (forall k :: 0 <= k < |v| ==> !IsSpace(v[k]))
    && exists i: nat | i < |v| :: OnlyAtSignAt(v, i) && i > 0 && DotAfter(v, i)
  }

  /** The pattern accepts exactly the addresses meeting the four conditions. */
  lemma IsEmailIff(v: String)
    ensures IsEmail(v) <==> EmailConditions(v)
  {
    if IsEmail(v) {
      var i: nat, j: nat :| i < j < |v| && SplitsAt(v, i, j);
      SplitConditions(v, i, j);
    }
    if EmailConditions(v) {
      var i: nat :| i < |v| && OnlyAtSignAt(v, i) && i > 0 && DotAfter(v, i);
      var j: nat :| j < |v| && i + 1 < j && j + 1 < |v| && v[j] == '.';
      ConditionsSplit(v, i, j);
    }
  }

  lemma SplitConditions(v: String, i: nat, j: nat)
    requires SplitsAt(v, i, j)
    ensures EmailConditions(v)
  {
    forall k | 0 <= k < |v|
      ensures !IsSpace(v[k]) && (v[k] == '@' ==> k == i)
    {
      if k < i {
        assert v[k] == v[..i][k];
      } else if i < k < j {
        assert v[k] == v[i + 1..j][k - i - 1];
      } else if j < k {
        assert v[k] == v[j + 1..][k - j - 1];
      }
    }
    assert OnlyAtSignAt(v, i) && DotAfter(v, i);
  }

  lemma ConditionsSplit(v: String, i: nat, j: nat)
    requires forall k :: 0 <= k < |v| ==> !IsSpace(v[k])
    requires OnlyAtSignAt(v, i) && i > 0
    requires j < |v| && i + 1 < j && j + 1 < |v| && v[j] == '.'
    ensures IsEmail(v)
  {
    assert SplitsAt(v, i, j);
  }

  /** Two sample addresses, one of each kind. */
  lemma IsEmailExamples()
    ensures IsEmail("a@b.nl")
    ensures !IsEmail("a@b")
  {
    assert SplitsAt("a@b.nl", 1, 3);
    forall i: nat, j: nat | i < j < 3
      ensures !SplitsAt("a@b", i, j)
    {
    }
  }

  // ---------------------------------------------------------------------
  // POST /api/users
  // ---------------------------------------------------------------------

  /** `String(x).trim().toLowerCase()`: how e-mail addresses are compared
      and stored. */
  function NormalizeEmail(s: String): (r: String)
    ensures Trimmed(r) && NoUpper(r)
    ensures |r| <= |s|
    ensures |r| == |Trim(s)| && forall k :: 0 <= k < |r| ==> r[k] == ToLowerChar(Trim(s)[k])
    ensures Trimmed(s) && NoUpper(s) ==> r == s
  {
    var t := Trim(s);
    LowerTrimmed(t);
    LowerNoUpper(t);
    Lower(t)
  }

  /** Normalising a normalised address changes nothing. */
  lemma NormalizeEmailIdempotent(s: String)
    ensures NormalizeEmail(NormalizeEmail(s)) == NormalizeEmail(s)
  {
    var r := NormalizeEmail(s);
    LowerNoUpper(r);
  }

  /** The addresses stored as they are given are exactly the trimmed ones
      without upper-case letters. */
  lemma NormalizeEmailFixedPoints(s: String)
    ensures NormalizeEmail(s) == s <==> Trimmed(s) && NoUpper(s)
  {
  }

  /** Surrounding white space is dropped and capitals are lowered. */
  lemma NormalizeEmailExample()
    ensures NormalizeEmail(" A@B.nl") == "a@b.nl"
  {
    LeadingSpaceTrimmed();
    var r := NormalizeEmail(" A@B.nl");
    var t: String := "A@B.nl";
    var e: String := "a@b.nl";
    assert |r| == |e|;
    assert r[0] == ToLowerChar(t[0]) == e[0];
    assert r[1] == ToLowerChar(t[1]) == e[1];
    assert r[2] == ToLowerChar(t[2]) == e[2];
    assert r[3] == ToLowerChar(t[3]) == e[3];
    assert r[4] == ToLowerChar(t[4]) == e[4];
    assert r[5] == ToLowerChar(t[5]) == e[5];
  }

  lemma LeadingSpaceTrimmed()
    ensures Trim(" A@B.nl") == "A@B.nl"
  {
    var t: String := "A@B.nl";
    assert !IsSpace(t[0]) && !IsSpace(t[|t| - 1]);
    assert [' '] + t == " A@B.nl";
    TrimLeadingSpace(' ', t);
  }

  /** The user row to create.  An empty name is stored as `None` (null). */
  datatype NewUser = NewUser(email: String, name: Option<String>, role: String)

  /** `name || null`: an empty name is stored as null. */
  function NullIfEmpty(s: String): (r: Option<String>)
    ensures r.None? <==> s == []
    ensures r.Some? ==> r.value == s
  {
    if s == [] then None else Some(s)
  }

  /** `body?.role === "admin" ? "admin" : "dealer"`. */
  function RoleOf(body: Value): (r: String)
    ensures r == "admin" <==> Prop(body, "role") == Str("admin")
    ensures r == "admin" || r == "dealer"
  {
    if Prop(body, "role") == Str("admin") then "admin" else "dealer"
  }

  /** The address read from the body: `String(body?.email || "")`,
      trimmed and lower-cased.  A string address gives its own normal form;
      an absent or empty one gives "". */
  function BodyEmail(body: Value): (r: String)
    ensures Prop(body, "email").Str? ==> r == NormalizeEmail(Prop(body, "email").s)
    ensures Truthy(Prop(body, "email")) ==> r == NormalizeEmail(ToJsString(Prop(body, "email")))
    ensures !Truthy(Prop(body, "email")) ==> r == []
    ensures NormalizeEmail(r) == r
  {
    var e := Prop(body, "email");
    var raw := TextOr(e, "");
    assert e.Str? ==> raw == e.s by {
      if e.Str? && e.s == [] {
        assert !Truthy(e);
      }
    }
    EmptyNormalizes();
    NormalizeEmailIdempotent(raw);
    NormalizeEmail(raw)
  }

  lemma EmptyNormalizes()
    ensures NormalizeEmail([]) == []
  {
    assert Trim([]) == [];
  }

  /** `String(body?.password || "")`: a string password as given, and ""
      when it is absent or falsy. */
  function BodyPassword(body: Value): (r: String)
    ensures Prop(body, "password").Str? ==> r == Prop(body, "password").s
    ensures Truthy(Prop(body, "password")) ==> r == ToJsString(Prop(body, "password"))
    ensures !Truthy(Prop(body, "password")) ==> r == []
  {
    TextOr(Prop(body, "password"), "")
  }

  /** `body?.name ? String(body.name).trim() : ""`: a string name comes
      back trimmed, and anything falsy gives "". */
  function BodyName(body: Value): (r: String)
    ensures Trimmed(r)
    ensures Prop(body, "name").Str? ==> r == Trim(Prop(body, "name").s)
    ensures Truthy(Prop(body, "name")) ==> r == Trim(ToJsString(Prop(body, "name")))
    ensures !Truthy(Prop(body, "name")) ==> r == []
  {
    if Truthy(Prop(body, "name")) then Trim(ToJsString(Prop(body, "name"))) else ""
  }

  /** `POST /api/users`: 403 for a caller who is not an admin, 400 for a
      body that is not JSON (`None`), then 400 for an invalid address, 400
      for a password under 8 characters, 409 for an address in use, and
      otherwise 201 with the new row. */
  function CreateUser(session: Option<Session>, body: Option<Value>,
                      existing: set<String>): (r: Response<NewUser>)
    ensures !IsAdmin(session) <==> r == Fail(Forbidden, "Forbidden")
    ensures IsAdmin(session) && body.None? <==> r == Fail(BadRequest, "Invalid JSON")
    ensures IsAdmin(session) && body.Some? ==>
      var b := body.value;
      && (!IsEmail(BodyEmail(b)) <==> r == Fail(BadRequest, "Invalid email"))
      && ((IsEmail(BodyEmail(b)) && |BodyPassword(b)| < 8)
          <==> r == Fail(BadRequest, "Password must be at least 8 characters"))
      && ((IsEmail(BodyEmail(b)) && |BodyPassword(b)| >= 8 && BodyEmail(b) in existing)
          <==> r == Fail(Conflict, "Email already exists"))
    ensures r.Reply? ==> r.status == Created && IsEmail(r.body.email)
                         && r.body.email !in existing
                         && NormalizeEmail(r.body.email) == r.body.email
                         && (r.body.role == "admin" <==> Prop(body.value, "role") == Str("admin"))
                         && (r.body.name.Some? ==> r.body.name.value != [] && Trimmed(r.body.name.value))
    ensures r.Reply? <==> IsAdmin(session) && body.Some? && IsEmail(BodyEmail(body.value))
                          && |BodyPassword(body.value)| >= 8 && BodyEmail(body.value) !in existing
    ensures r.Reply? ==> r.body == NewUser(BodyEmail(body.value),
                                           NullIfEmpty(BodyName(body.value)),
                                           RoleOf(body.value))
  {
    BadRequestMessagesDiffer();
    if !IsAdmin(session) then Fail(Forbidden, "Forbidden")
    else if body.None? then Fail(BadRequest, "Invalid JSON")
    else
      var b := body.value;
      var email := BodyEmail(b);
      if !IsEmail(email) then Fail(BadRequest, "Invalid email")
      else if |BodyPassword(b)| < 8 then Fail(BadRequest, "Password must be at least 8 characters")
      else if email in existing then Fail(Conflict, "Email already exists")
      else
        var name := BodyName(b);
        Reply(Created, NewUser(email, NullIfEmpty(name), RoleOf(b)))
  }

  /** The three 400 replies carry different messages. */
  lemma BadRequestMessagesDiffer()
    ensures "Invalid JSON" != "Invalid email"
    ensures "Invalid JSON" != "Password must be at least 8 characters"
    ensures "Invalid email" != "Password must be at least 8 characters"
  {
    assert |"Invalid JSON"| == 12 && |"Invalid email"| == 13;
    assert |"Password must be at least 8 characters"| == 38;
  }

  /** The address that is validated, looked up and stored is the body's
      text trimmed and lower-cased, so addresses that differ only in case or
      surrounding white space are one address: the second is refused with
      409 once the first is stored. */
  lemma BodyEmailNormalized(session: Option<Session>, body: Value, raw: String, existing: set<String>)
    requires Prop(body, "email") == Str(raw)
    ensures var r := CreateUser(session, Some(body), existing);
            r.Reply? ==> r.body.email == NormalizeEmail(raw)
    ensures IsAdmin(session) && IsEmail(NormalizeEmail(raw)) && |BodyPassword(body)| >= 8
            && NormalizeEmail(raw) in existing
            ==> CreateUser(session, Some(body), existing) == Fail(Conflict, "Email already exists")
  {
  }

  /** The user a well-formed request creates: for a body whose `email`,
      `password`, `name` and `role` fields are strings and an admin caller,
      a fresh valid address is stored in normal form, the name trimmed
      (null when nothing is left) and the role as asked. */
  lemma CreatedUserOfRequest(session: Option<Session>, body: Value,
                             email: String, password: String, name: String, role: String,
                             existing: set<String>)
    requires IsAdmin(session)
    requires Prop(body, "email") == Str(email) && Prop(body, "password") == Str(password)
    requires Prop(body, "name") == Str(name) && Prop(body, "role") == Str(role)
    requires IsEmail(NormalizeEmail(email)) && NormalizeEmail(email) !in existing
    requires |password| >= 8
    ensures var r := CreateUser(session, Some(body), existing);
            && r.Reply? && r.status == Created
            && r.body.email == NormalizeEmail(email)
            && r.body.name == NullIfEmpty(Trim(name))
            && r.body.role == (if role == "admin" then "admin" else "dealer")
  {
    RequestFields(body, email, password, name, role);
    CreateUserSucceeds(session, body, existing);
  }

  lemma RequestFields(body: Value, email: String, password: String, name: String, role: String)
    requires Prop(body, "email") == Str(email) && Prop(body, "password") == Str(password)
    requires Prop(body, "name") == Str(name) && Prop(body, "role") == Str(role)
    ensures BodyEmail(body) == NormalizeEmail(email)
    ensures BodyPassword(body) == password
    ensures BodyName(body) == Trim(name)
    ensures RoleOf(body) == (if role == "admin" then "admin" else "dealer")
  {
  }

  lemma CreateUserSucceeds(session: Option<Session>, body: Value, existing: set<String>)
    requires IsAdmin(session)
    requires IsEmail(BodyEmail(body)) && |BodyPassword(body)| >= 8 && BodyEmail(body) !in existing
    ensures CreateUser(session, Some(body), existing)
            == Reply(Created, NewUser(BodyEmail(body),
                                      NullIfEmpty(BodyName(body)),
                                      RoleOf(body)))
  {
  }

  // ---------------------------------------------------------------------
  // GET /api/users?role=…
  // ---------------------------------------------------------------------

  datatype User = User(id: String, email: String, name: Option<String>, role: String, createdAt: int)

  function WithRole(users: seq<User>, role: String): (r: seq<User>)
    ensures forall u :: u in r <==> u in users && u.role == role
    ensures forall u: User :: u.role == role ==> multiset(r)[u] == multiset(users)[u]
  {
    if users == [] then []
    else
      assert users == [users[0]] + users[1..];
      var rest := WithRole(users[1..], role);
      if users[0].role == role then [users[0]] + rest else rest
  }

  /** `GET /api/users`: 403 for a caller who is not an admin; otherwise the
      users of the requested role (all users when no non-empty role is
      given), newest first. */
  function ListUsers(session: Option<Session>, role: Option<String>, users: seq<User>)
    : (r: Response<seq<User>>)
    ensures !IsAdmin(session) <==> r == Fail(Forbidden, "Forbidden")
    ensures r.Reply? ==> r.status == Ok && Descending(r.body, (u: User) => u.createdAt)
    ensures r.Reply? ==> forall u :: u in r.body <==>
              u in users && (role.None? || role.value == [] || u.role == role.value)
    ensures r.Reply? && (role.None? || role.value == []) ==> multiset(r.body) == multiset(users)
  {
    if !IsAdmin(session) then Fail(Forbidden, "Forbidden")
    else
      var selected := if role.Some? && role.value != [] then WithRole(users, role.value) else users;
      var sorted := SortDescending(selected, (u: User) => u.createdAt);
      forall u | true
        ensures u in sorted <==> u in selected
      {
        assert u in sorted <==> u in multiset(sorted);
      }
      Reply(Ok, sorted)
  }
}
